=== FILE: README.md ===
# Expense tracker — a verified model of its bookkeeping

The expense tracker keeps transport expenses for employees in one JSON store that maps
user names to account records. It has two front ends.

- **The desktop tracker** is the `ExpenseTrackerApp` window of `main.py`. It offers:
  - registration and login with SHA-256 password digests;
  - a profile editor;
  - an expense ledger per user, with add, edit and delete;
  - a search and period filter;
  - totals and a statistics window;
  - an Excel report with receipt thumbnails.
- **The web front end** is `streamlit_app.py`. It uses the same store. It offers:
  - accounts with plaintext passwords;
  - category-tagged expenses;
  - a summary with a per-category breakdown;
  - a clear-all button.

The model keeps the store, the records and every rule that decides what is stored or shown. Widgets,
files and clocks become parameters.

## Modules

- `Wrappers`: `Option` and `Result`.
- `Text`: these Python string operations:
  - `strip`, which removes Unicode white space from both ends;
  - `lower`, for ASCII letters;
  - substring search;
  - digit strings.
- `Decimal`:
  - `float(text)` for plain decimal numerals;
  - the `:.2f` form, which rounds half to even on the exact value.
- `Email`: the e-mail pattern of `validate_email`, proved equal to a character-level description of its
  shape.
- `Calendar`: proleptic Gregorian dates. It covers:
  - validity;
  - day numbers, as in `date.toordinal`;
  - the weekday, with Monday = 0;
  - subtracting days;
  - date-time order;
  - `%Y-%m-%d` parsing and printing.
- `Records`: the shared record shapes.
  - Dictionary keys that may be missing are `Option` fields.
  - The `Records` module also defines amount totals and the rows of the expense table.
- `Store`: the two JSON files, primary and backup, each modelled as a slot (missing, unreadable, or holding
  a user map). It also holds the back-fill of old records, loading and saving.
- `Accounts`: registration, login and profile saving on the user map.
- `Ledger`: the add and edit checks, removal by position, and the rebuild of the ledger from the table rows.
- `Filtering`: the search and period filter.
- `Statistics`: grouped sums kept as an ordered association list, the ordering by sum, percentages, and the
  statistics window.
- `Report`: the layout of the Excel report as a plan of rows and cells.
- `Tracker`: the desktop window as a class whose fields the buttons update.
- `Web`: the web front end as a class for one browser session.

## Behaviour of the source that the model keeps

These are proved as lemmas about the code as written.

- **Registration and login strip the password differently.** Registration stores the digest of the
  *stripped* password; login hashes the password *as typed*. A password with surrounding blanks therefore
  locks its account (`Accounts.PaddedPasswordLockedOut`).
- **Edit and delete index the ledger by the table row.** While a filter is active, the table shows the
  filtered list, but edit and delete still use the row number as a position in the whole ledger.
  `Filtering.DisplayIndexIsNotLedgerIndex` exhibits a two-record ledger where row 0 of the table is
  not record 0.
- **Delete's fallback.** When the row number lies past the ledger, delete rebuilds the ledger from the
  remaining table rows. The rebuilt records lose their receipts and keep amounts rounded to cents.
- **Logging out keeps the filter.** Logout and login do not reset the filter. The next user's table is
  drawn from the previous filtered list until the filter is cleared or reapplied.
- **Adding appends a table row even under a filter.** Adding an expense appends its row to the table as
  it stands, even while the table shows a filtered list.
- **Accounts do not cross front ends.**
  - A desktop account signs in on the web only with its digest typed as the password
    (`Web.DigestSignsIn`).
  - A web account opens on the desktop only if the hash maps its password to itself
    (`Web.WebAccountOnDesktop`).
- **The web summary.**
  - It stops on a record without a `category` or `amount` key. This is a `KeyError` in Python; desktop
    records have no `category`.
  - It stops when the total is zero, because the percentage divides by it.
  - The desktop statistics window guards both cases.
  - It also stops when no record has a `date` or none has a `description`, since the table selects
    those columns.
  - The clear button is drawn below the summary and the table, so a ledger whose summary stops cannot be
    cleared on the web. This includes any ledger holding a desktop record (`Web.DesktopRecordBlocksClear`)
    and one whose amounts add up to zero. A non-empty ledger of web records with positive amounts can
    always be cleared (`Web.WebLedgerClears`).

## Model

| member | source | states |
|---|---|---|
| Text.Strip | main.py:227 | the result is no longer than the input and has no white space at either end |
| Text.StripSlice | main.py:227 | the stripped text is the input with leading and trailing white space cut off |
| Text.StripEmptyIffBlank | main.py:230 | a field strips to empty exactly when it is all white space |
| Text.StripIdempotent | main.py:227 | stripping twice gives what stripping once gives |
| Text.StripTrimmed | main.py:519 | text without white space at its ends is left unchanged |
| Text.Lower | main.py:782 | lower-casing keeps the length, leaves no capital A to Z, maps each capital to its small letter and keeps every other character |
| Text.LowerIdempotent | main.py:782 | lower-casing twice gives what lower-casing once gives |
| Text.Without | main.py:745 | `replace(',', '')` leaves no comma, keeps every other character as often as it occurred, and changes a comma-free text not at all |
| Decimal.ParseUnsigned | main.py:519 | an unsigned numeral reads as a non-negative value |
| Decimal.ParseSigned | main.py:519 | an empty text is not a number; after a leading `-` the value is the negated unsigned numeral that follows; after a leading `+` it is that numeral; otherwise the whole text is read as an unsigned numeral |
| Decimal.Cents | main.py:556 | `:.2f` rounds to the nearest cent, within half a cent |
| Decimal.Fixed2 | main.py:556 | the printed amount is never empty |
| Decimal.CentsText | main.py:775 | the unsigned printed amount starts and ends with a digit |
| Decimal.CentsTextRoundTrip | main.py:775 | the printed cents of a non-negative amount read back as that many cents |
| Decimal.PositiveSign | main.py:775 | a non-negative amount prints without a sign as its rounded cents |
| Decimal.CentsReadBack | main.py:745 | `float()` of a printed non-negative amount gives the amount rounded to cents |
| Decimal.NegativeReadBack | main.py:745 | `float()` of a printed amount with a minus sign gives the negated cents value |
| Decimal.MinusSigned | main.py:519 | a minus sign before an unsigned numeral reads as the negated numeral |
| Decimal.MinusTrimmed | main.py:519 | `float()` strips nothing from a minus sign followed by a numeral ending in a digit |
| Decimal.ParseFloatTrimmed | main.py:703 | on a text without white space at its ends, `float()` reads the signed numeral itself |
| Email.MatchesIffShape | main.py:94-97 | the pattern matches exactly when there is an `@` with a non-empty local part of allowed characters, and a domain of allowed characters whose last dot has a non-empty prefix and at least two letters after it |
| Email.ShapeOfMatch | main.py:96 | any match of the pattern has the character-level shape |
| Email.ValidateStripped | main.py:250 | the stripped e-mail is accepted exactly when it has the shape |
| Email.OneAt | main.py:96 | an accepted address holds exactly one `@` |
| Calendar.DaysInMonth | main.py:529 | every month has 28 to 31 days |
| Calendar.MidnightStartsTheDay | main.py:798-805 | the date-time a parsed date stands for (midnight) is before no time of that day, and before every time of that day but midnight itself |
| Calendar.Weekday | main.py:803 | the weekday lies in 0..6 |
| Calendar.WeekStart | main.py:803 | `today - timedelta(days=today.weekday())` lands on a Monday, that many days earlier |
| Calendar.SubtractDays | main.py:810 | subtracting days gives a valid date, or nothing before 1 January of year 1 |
| Calendar.SubtractDaysDefined | main.py:810 | subtracting `n` days is defined exactly when `n` is below the day number |
| Calendar.SubtractDaysNumber | main.py:810 | subtracting `n` days lowers the day number by exactly `n` |
| Calendar.DateBeforeIffNumber | main.py:804 | field-by-field date order is the order of day numbers, and equal dates have equal numbers |
| Calendar.FirstDayNumber | main.py:810 | day numbers start at 1 on 1 January of year 1 |
| Calendar.ParseDate | main.py:529 | a date accepted by `%Y-%m-%d` is a valid Gregorian date |
| Calendar.ParseFormatDate | streamlit_app.py:113 | a date printed as `%Y-%m-%d` (years from 1000) parses back to itself |
| Records.DisplayRow | main.py:768-777 | a table row shows each text field of the record, or an empty string where the key is missing, the amount with two decimals, and marks the receipt exactly when one is recorded |
| Records.DisplayRows | main.py:767-778 | the table has one row per listed record, in order |
| Records.TotalConcat | main.py:832 | the total of two lists joined is the sum of their totals |
| Records.TotalNonNegative | streamlit_app.py:23-24 | the total of non-negative amounts is non-negative |
| Records.TotalBounds | main.py:863 | each non-negative amount lies between zero and the total |
| Store.Upgrade | main.py:67-72 | `expenses`, `payment_method` and `company_name` are filled with their defaults when missing and kept when present |
| Store.UpgradeAll | main.py:62-64 | the back-fill keeps the set of user names |
| Store.UpgradeOnlyFills | main.py:62-72 | the back-fill changes no other key and leaves an upgraded record as it was |
| Store.UpgradeIdempotent | main.py:62-72 | back-filling twice gives what back-filling once gives |
| Store.SaveUsers | main.py:74-86 | saving puts the map in the primary file and moves the old primary file, if any, to the backup |
| Store.LoadAfterSave | main.py:40-47 | loading right after a save gives the saved map back-filled |
| Store.BackupIsOneSaveBehind | main.py:76-82 | after two saves the backup holds the first map, and a load that falls back to it returns that map as stored |
| Store.LoadFallbacks | main.py:40-60 | no primary file gives an empty map; an unreadable one falls back to the backup without back-fill, or to an empty map |
| Accounts.Register | main.py:225-265 | registration succeeds exactly when the required fields are filled, the name has 3 or more characters, the password has 6 or more and matches its confirmation, the name is new and the e-mail is empty or valid; each error is reported exactly when its own check fails and every earlier check passed; on success it adds one account holding the password's digest, the form's name, employee number, company, department and e-mail, the creation time, cash payment and an empty ledger, and changes no other account |
| Accounts.Login | main.py:271-290 | login reports a blank field exactly when the stripped name or the password is empty, an unknown user exactly when both are filled and the name is not registered, a wrong password exactly when the name is registered and the digest of the unstripped password differs, and succeeds in the remaining case; the signed-in copy carries the name and the stored ledger |
| Accounts.RegisterThenLogin | main.py:255-290 | a newly registered account signs in with its password and an empty ledger |
| Accounts.LoginAs | main.py:280-290 | a registered name with the matching password signs in with its stored ledger |
| Accounts.OtherPasswordRefused | main.py:284-286 | after registration any other non-empty password is refused as wrong, not as unknown |
| Accounts.PaddedPasswordLockedOut | main.py:257 | a password registered with surrounding blanks cannot sign in as typed |
| Accounts.SaveProfile | main.py:1168-1194 | the profile is saved exactly when a new password, if given, has 6 or more characters and matches, and the e-mail is empty or valid; each error is reported exactly when its own check fails and every earlier one passed; a save stores the stripped name, employee number, company, department and e-mail and the chosen payment method in that account alone, changes the digest only for a new password, and keeps the ledger, creation time and user name |
| Accounts.ProfilePasswordChange | main.py:1193-1194 | after a password change the new password signs in and the former one is refused |
| Accounts.ProfileKeepsLogins | main.py:1184-1191 | a profile save without a new password changes no one's ability to sign in |
| Ledger.CheckAdd | main.py:514-544 | a record is added exactly when from, to and amount are not blank, the amount is a number above zero and the date parses; each error (blank field, not a number, not above zero, bad date) is reported exactly when its own check fails and every earlier one passed; the record holds the stripped date, from, to and notes, the chosen type and payment method, the amount, the receipt and the time added, and no category, description or web timestamp |
| Ledger.AddedRowShown | main.py:549-559 | the row drawn for an added record shows the stripped fields and the amount with two decimals |
| Ledger.CheckEdit | main.py:696-721 | an edit is accepted exactly when the date parses and the amount is a number above zero; the date is checked first; from and to may be blank; the record keeps its time added or takes now, gains the time updated, and an empty receipt path becomes none |
| Ledger.EditKeepsAddedAt | main.py:719 | editing an edited record keeps its first time added |
| Ledger.TotalReplace | main.py:723 | replacing a record changes the total by the difference of the two amounts |
| Ledger.RemoveAt | main.py:599 | removal drops exactly the record at the position and keeps the others in order |
| Ledger.TotalRemove | main.py:599 | removal lowers the total by the removed amount |
| Ledger.RemoveKeepsOthers | main.py:599 | the remaining records and the removed one together are the old ledger |
| Ledger.RebuildAll | main.py:738-758 | the rebuilt ledger has one record per table row |
| Ledger.RebuildAllAt | main.py:742-757 | each rebuilt record comes from the table row at the same position |
| Ledger.Rebuild | main.py:738-758 | the loop over the table rows builds exactly the rebuilt ledger |
| Ledger.ReadsBack | main.py:744-747 | the amount shown in a row reads back, commas removed, as the amount rounded to cents |
| Ledger.RebuildOfShown | main.py:748-757 | rebuilding from the row of a record keeps its texts, rounds its amount to cents and drops its receipt and time added |
| Filtering.Filtered | main.py:780-815 | the filtered list is never longer than the ledger |
| Filtering.FilterLoop | main.py:785-815 | the loop over the ledger builds exactly the filtered list |
| Filtering.FilteredIsSubsequence | main.py:788-815 | the filtered list is a subsequence of the ledger, in ledger order |
| Filtering.FilteredMembers | main.py:788-815 | a record is in the filtered list exactly when it is in the ledger and passes both the search and the period |
| Filtering.FilteredCount | main.py:788-815 | a record passing both tests is kept as many times as the ledger holds it, and one failing either is not kept at all |
| Filtering.NoFilterKeepsAll | main.py:790-796 | an empty search over all periods keeps the whole ledger |
| Filtering.FilteredTotal | main.py:831-832 | with non-negative amounts the filtered total never exceeds the ledger total |
| Filtering.SubsequenceTotal | main.py:831-832 | a subsequence of non-negative amounts has no greater total |
| Filtering.DisplayIndexIsNotLedgerIndex | main.py:595-599 | under a filter, table row 0 can be a different record from ledger position 0 |
| Filtering.SinceStart | main.py:803-811 | a date passes "not earlier than now minus n days" exactly when it is a later day, or that same day with now at midnight |
| Filtering.MondayNeedsMidnight | main.py:802-805 | a record dated on this week's Monday passes the week filter only at midnight |
| Filtering.ThirtyDaysNeedsMidnight | main.py:809-811 | a record dated exactly 30 days ago passes only at midnight |
| Filtering.NoUpperBound | main.py:802-811 | future-dated records pass the week and the 30-day filters |
| Statistics.AddTo | main.py:870 | adding to a key grows the list by at most one entry |
| Statistics.AddToLookup | main.py:870 | adding to a key raises that key's sum by the amount and no other |
| Statistics.AddToSum | main.py:870 | adding to a key raises the sum of all groups by the amount |
| Statistics.AddToKeys | main.py:870 | keys stay distinct, the added key is present, and an existing key adds no entry |
| Statistics.GroupedLookup | main.py:867-870 | each key's group sum is the sum of the amounts carrying that key |
| Statistics.GroupedTotal | main.py:867-876 | the group sums add up to the sum of all amounts, once per distinct key, over exactly the keys present |
| Statistics.GroupLoop | main.py:867-876 | the accumulation loop builds exactly the grouped sums |
| Statistics.Insert | main.py:900 | inserting keeps every group and adds the new one |
| Statistics.SortBySum | main.py:900 | sorting by sum is a permutation of the groups |
| Statistics.InsertSorted | main.py:900 | inserting into a list in non-increasing order keeps it in that order |
| Statistics.SortedBySum | main.py:900 | sorting by sum, descending, gives a permutation in non-increasing order |
| Statistics.SortKeepsDistinct | main.py:900 | sorting the entries of a dictionary lists each key once |
| Statistics.InsertSum | main.py:900 | inserting adds the group's sum to the total |
| Statistics.SortKeepsSum | main.py:900 | sorting keeps the sum of the groups |
| Statistics.Share | main.py:901 | a share of a non-negative total lies in 0..100, and is 0 when the total is not positive |
| Statistics.SharesOfSum | main.py:900-901 | the shares add up to the group sum over the total, times 100 |
| Statistics.SharesAddUp | main.py:900-914 | with a positive total the shares of groups making up the total add up to 100 |
| Statistics.Listing | main.py:900-914 | the listed groups are in non-increasing order, add up to the total, have exactly the keys of the items with each key listed once, and each holds the sum of the amounts filed under its key |
| Statistics.MemberLookup | main.py:870 | in a dictionary with distinct keys, an entry's key looks up that entry's sum |
| Statistics.KeysOfMembers | main.py:870 | the keys of a group list are the keys of its entries |
| Statistics.ByType | main.py:868-870 | one entry per record, in order, holding its type (other when missing) and its amount; the entries add up to the ledger total |
| Statistics.ByPayment | main.py:874-876 | one entry per record, in order, holding its payment method (cash when missing) and its amount; the entries add up to the ledger total |
| Statistics.ItemsTotal | main.py:857 | the entries' amounts add up to the ledger total |
| Statistics.Largest | main.py:863 | the highest expense is at least every amount and is one of them |
| Statistics.Smallest | main.py:864 | the lowest expense is at most every amount and is one of them |
| Statistics.Summarize | main.py:838-914 | no window for an empty ledger; otherwise count, total and average of the whole ledger, a highest and a lowest amount that bound every amount and occur in the ledger, and two breakdowns in non-increasing order adding up to the total, with exactly one entry per type (payment method) seen, holding the amounts filed under it |
| Report.Scale | main.py:1038-1042 | a thumbnail over 150 on a side is scaled down so both sides are at most 150 and the larger is exactly 150, never enlarged; smaller images are kept as they are; a zero side on an oversized image fails |
| Report.ScaleBounds | main.py:1040-1042 | the scaled sides stay within 150 and within the original sides, and the larger reaches 150 |
| Report.Receipt | main.py:1034-1049 | the cell reads none exactly when no path is recorded or the file is missing; attached exactly when the file opens as a picture whose scaled size exists, with the row height set to the larger of 115 and three quarters of the scaled height plus 10 (so 115 to 122); an image error in every other case |
| Report.LineFor | main.py:1016-1031 | a report line carries its row and shading, each text column of the record with empty text for a missing key, the record's amount, and the receipt cell of the record's receipt path |
| Report.Generate | main.py:947-1076 | the report needs a name and an employee id; the information block uses the defaults for missing fields; record i goes on row 11+i, shaded when i is even; the total row is 12+n holding the ledger total; the signatures are 3 rows below |
| Report.TotalMatchesColumn | main.py:1065-1067 | the total cell equals the sum of the amount column |
| Report.RowsInOrder | main.py:980-1013 | the information rows, the header and the record rows follow each other without overlap |
| Report.CreateReport | main.py:925-945 | an empty ledger is refused, no chosen file cancels, a missing name or employee id fails, and a written report lays out the whole ledger |
| Web.LoadData | streamlit_app.py:13-17 | no file gives an empty map, a file is read as stored, and an unreadable file stops the page |
| Web.CheckSignIn | streamlit_app.py:44-53 | sign-in succeeds exactly when the name is registered and the stored password equals the typed one; an unknown name is reported as such |
| Web.WebAccount | streamlit_app.py:63-66 | a web account holds the password as typed and an empty ledger, nothing else |
| Web.WebExpense | streamlit_app.py:110-116 | a web record holds the category, the amount, the description and the time stamp of now, none of the desktop fields, and a date that parses back to the picked date |
| Web.CategoryItems | streamlit_app.py:145-148 | the category breakdown proceeds exactly when every record has a category and an amount, and then reads the category and amount of each record in order |
| Web.CategoryLoop | streamlit_app.py:145-148 | the accumulation loop builds exactly the grouped category sums |
| Web.Summary | streamlit_app.py:127-156 | nothing is shown for an empty ledger; the page stops on a missing key or a zero total; otherwise the total, count and average, and categories in non-increasing order adding up to the total, exactly one entry per category seen, holding the amounts filed under it, whose percentages add up to 100 |
| Web.CategoryTotals | streamlit_app.py:23-24 | the category amounts add up to `calculate_total` |
| Web.DigestSignsIn | streamlit_app.py:45-47 | a desktop account signs in on the web with its digest, and with its password only if the hash maps it to itself |
| Web.WebAccountOnDesktop | streamlit_app.py:63-66 | a web account opens on the desktop only if the hash maps its password to itself |
| Web.Session.constructor | streamlit_app.py:27-30 | a session starts from the map `load_data` reads from the data file, the file unchanged, with nobody signed in |
| Web.Session.SignInAs | streamlit_app.py:44-53 | the session signs in exactly the name the check accepts and changes no data |
| Web.Session.CreateAccount | streamlit_app.py:60-72 | an account is created and saved exactly when both fields are filled and the name is new; otherwise nothing changes |
| Web.Session.SignOut | streamlit_app.py:84-86 | signing out forgets the user and changes no data |
| Web.Session.AddExpense | streamlit_app.py:108-122 | a positive amount appends one record to the signed-in user's ledger alone and saves; otherwise nothing changes |
| Web.Session.ClearAll | streamlit_app.py:127-173 | the ledger of the signed-in user is emptied and saved exactly when the summary and the table above the button are drawn (a non-empty ledger, every record with a category and an amount, a non-zero total, some record with a date and some with a description); no other account changes |
| Web.DesktopRecordBlocksClear | streamlit_app.py:145-169 | a ledger holding a record without a category never reaches the clear button |
| Web.WebLedgerClears | streamlit_app.py:127-169 | a non-empty ledger of web records with positive amounts always reaches the clear button |
| Tracker.ExpenseTracker.constructor | main.py:15-32 | the window starts from the loaded store, signed out, with an empty ledger, no filter and no receipt |
| Tracker.ExpenseTracker.UpgradeUserData | main.py:62-72 | the loop back-fills every account in place and changes nothing else |
| Tracker.ExpenseTracker.SaveUsers | main.py:74-88 | the files take the map and nothing else changes |
| Tracker.ExpenseTracker.SaveUserExpenses | main.py:578-583 | the signed-in account takes the working ledger and the chosen payment method, is written back under its name and saved |
| Tracker.ExpenseTracker.RefreshTable | main.py:760-778 | the table is redrawn from the list shown |
| Tracker.ExpenseTracker.Register | main.py:225-269 | the form is stripped and checked; an accepted account is stored and saved, a refused one changes nothing |
| Tracker.ExpenseTracker.Login | main.py:271-293 | a successful login sets the signed-in copy and the working ledger and draws the table; a failed one changes nothing |
| Tracker.ExpenseTracker.AttachReceipt | main.py:502-510 | a chosen file becomes the receipt for the next record; cancelling keeps the previous one |
| Tracker.ExpenseTracker.AddExpense | main.py:512-563 | an accepted record is appended to the ledger and the table and saved with the chosen payment method, and the receipt is cleared; a refused one changes nothing |
| Tracker.ExpenseTracker.Append | main.py:546-571 | the record goes at the end of the ledger and of the table, the store is saved and the receipt is cleared |
| Tracker.ExpenseTracker.DeleteExpense | main.py:585-605 | the selected table row is removed and so is the ledger record at the same position, or the ledger is rebuilt from the rows when there is none; then the store is saved; no selection or no confirmation changes nothing |
| Tracker.ExpenseTracker.EditExpense | main.py:607-728 | a table row past the ledger is refused; an accepted form replaces the record at that position alone, saves and redraws; a refused one changes nothing |
| Tracker.ExpenseTracker.FilterExpenses | main.py:780-836 | the filtered list is recomputed from the whole ledger with the stripped, lower-cased search; the filter is active exactly when there is search text or a period other than all; the count then shown is at most the ledger's and, with no negative amount, so is the total |
| Tracker.ExpenseTracker.ClearFilter | main.py:821-836 | the filter is switched off, the whole ledger is drawn, and the count and total shown are those of the whole ledger |
| Tracker.ExpenseTracker.ShowStatistics | main.py:838-919 | the statistics window summarizes the whole ledger, whatever the filter |
| Tracker.ExpenseTracker.CreateReport | main.py:925-945 | the report covers the whole ledger, whatever the filter |
| Tracker.ExpenseTracker.SaveProfile | main.py:1168-1202 | an accepted profile is stored and saved, and the signed-in copy becomes the stored record with its name; a refused one changes nothing |
| Tracker.ExpenseTracker.Logout | main.py:1216-1223 | once confirmed, the ledger of the signed-in user is saved and the window forgets the user and the ledger; the filter stays |
| Tracker.ExpenseTracker.Close | main.py:1225-1234 | closing with someone signed in saves the ledger when confirmed; nothing else changes |

## Left out

- Widgets, message boxes, file dialogs, styling, the opening of the report in a browser, and the page
  reruns of the web front end are left out.
  - Confirmations and chosen files are parameters.
  - The widget text of the totals line is not modelled, only its count and sum.
- Reading and writing JSON is left out.
  - Each file is a slot: missing, unreadable, or holding a map.
  - A failed write is not modelled.
  - JSON `null` and a missing key are both `None`.
- SHA-256 is the parameter `hash`. Where a lemma needs the hash to be injective, it says so.
- `datetime.now()` is a parameter. The result of the image checks (the file exists, the file embeds, its
  size) is a parameter too.
- Amounts are exact reals, not binary floating point.
  - Rounding in sums, averages, percentages and image scaling is not modelled.
  - Thumbnail scaling uses the exact ratio and truncates.
- Decimal.ParseFloat: reads plain decimal numerals of ASCII digits only. `nan`, `inf`, exponents,
  underscores and non-ASCII decimal digits (Arabic-Indic digits, for one) are not modelled, so a text
  using them is refused here though Python would read it.
- Decimal.Fixed2: its read-back is stated for the cents text with and without a minus sign
  (`Decimal.CentsReadBack`, `Decimal.NegativeReadBack`), not composed through `Fixed2` itself.
- Text.Lower: lower-cases ASCII letters only. Unicode case mapping is not modelled.
- Calendar.ParseDate: reads ASCII digits only. `strptime`'s one-digit months and days (and a day written
  as a space and a digit) are modelled; non-ASCII decimal digits, which `strptime` also accepts, are not.
- Calendar.ParseFormatDate: stated for years from 1000, since `strftime` does not zero-pad smaller
  years.
- Statistics.SortBySum: the result is proved to be ordered by sum and a permutation. The stability of
  Python's sort is not stated.
- Web.Summary: the percentages are stated only for a positive total. The text formatting of percentages
  (`:.1f`) is not modelled.
- Web.LoadData: a file that does not parse is modelled as `None`. It is an uncaught exception that stops
  the page.
- Web.Session.AddExpense: a record whose `expenses` key is missing stops the page with a `KeyError`.
  This is modelled as adding nothing.
- Tracker.ExpenseTracker.Login: the greeting reads the account's `name`, which a web account lacks. The
  resulting `KeyError` is modelled as a login that sets the user and the ledger but does not redraw
  the table.
- The signed-in account is a copy of the stored record, and its ledger list is shared with the working
  ledger after a save. The model keeps values, so aliasing between the two is not modelled.
- The pandas table of the web front end: its contents and its sort by date are not modelled. Only whether
  it stops the page for a missing column is (`Web.TableShown`).
- Web.Session.ClearAll: a key holding JSON `null` still gives the table its column, but the model reads it
  as missing, like every absent key. A page stopped before the button is modelled as clearing nothing.
- Web.Session.constructor: a data file that cannot be read stops the page before any session exists, so
  the constructor requires a readable file.

=== FILE: accounts.dfy ===
/**
 * Accounts of the desktop tracker: registration, login and the profile
 * editor. Each takes the typed field strings and returns either the new user
 * map (or the logged-in copy) or the error the tracker shows; an error never
 * changes anything. The password digest (SHA-256, hex) is the parameter
 * `hash`, about which nothing is known unless a lemma says so.
 */
module Accounts {
  import opened Wrappers
  import opened Text
  import opened Email
  import opened Records

  /** The errors the account forms show, one per guard. */
  datatype FormError =
    | MissingField      // a required field is blank
    | ShortUsername     // fewer than 3 characters
    | ShortPassword     // fewer than 6 characters
    | PasswordMismatch  // password and confirmation differ
    | UsernameTaken     // the user name is already a key of the store
    | BadEmail          // a non-empty e-mail that `validate_email` refuses

  /** The eight entries of the registration screen, as typed. */
  datatype RegisterForm = RegisterForm(
    name: string, username: string, password: string, confirm: string,
    employeeId: string, companyName: string, department: string, email: string)

  /** `register` strips every entry before looking at it. */
  function Stripped(f: RegisterForm): RegisterForm
  {
    RegisterForm(Strip(f.name), Strip(f.username), Strip(f.password), Strip(f.confirm),
                 Strip(f.employeeId), Strip(f.companyName), Strip(f.department), Strip(f.email))
  }

  /** Name, user name, password, employee number and company are required; department and e-mail are not. */
  predicate Complete(f: RegisterForm)
  {
    f.name != "" && f.username != "" && f.password != "" && f.employeeId != "" && f.companyName != ""
  }

  /** The record `register` stores for a stripped form. */
  function NewAccount(d: RegisterForm, hash: string -> string, createdAt: string): Account
  {
    Account(hash(d.password), Some(d.name), Some(d.employeeId), Some(d.companyName),
            Some(d.department), Some(d.email), Some(Cash), Some([]), Some(createdAt), None)
  }

  /**
   * `register` on the entries after it has stripped them (see `Stripped`):
   * the guards in the order the tracker checks them, then one insert under
   * the user name holding the digest of the password, the default payment
   * method and an empty ledger.
   */
  function Register(users: Users, d: RegisterForm, hash: string -> string, createdAt: string): (r: Result<Users, FormError>)
    ensures r.Ok? <==>
      Complete(d) && |d.username| >= 3 && |d.password| >= 6 && d.password == d.confirm
      && d.username !in users && (d.email == "" || ValidateEmail(d.email))
    ensures r.Ok? ==>
      r.value.Keys == users.Keys + {d.username}
      && (forall u :: u in users ==> r.value[u] == users[u])
      && r.value[d.username].password == hash(d.password)
      && r.value[d.username].expenses == Some([])
      && r.value[d.username].paymentMethod == Some(Cash)
      && r.value[d.username].name == Some(d.name)
      && r.value[d.username].employeeId == Some(d.employeeId)
      && r.value[d.username].companyName == Some(d.companyName)
      && r.value[d.username].department == Some(d.department)
      && r.value[d.username].email == Some(d.email)
      && r.value[d.username].createdAt == Some(createdAt)
    // each error exactly when its own guard fails and every earlier one passed
    ensures r == Err(MissingField) <==> !Complete(d)
    ensures r == Err(ShortUsername) <==> Complete(d) && |d.username| < 3
    ensures r == Err(ShortPassword) <==> Complete(d) && |d.username| >= 3 && |d.password| < 6
    ensures r == Err(PasswordMismatch) <==>
      Complete(d) && |d.username| >= 3 && |d.password| >= 6 && d.password != d.confirm
    ensures r == Err(UsernameTaken) <==>
      Complete(d) && |d.username| >= 3 && |d.password| >= 6 && d.password == d.confirm
      && d.username in users
    ensures r == Err(BadEmail) <==>
      Complete(d) && |d.username| >= 3 && |d.password| >= 6 && d.password == d.confirm
      && d.username !in users && d.email != "" && !ValidateEmail(d.email)
  {
    if !Complete(d) then Err(MissingField)
    else if |d.username| < 3 then Err(ShortUsername)
    else if |d.password| < 6 then Err(ShortPassword)
    else if d.password != d.confirm then Err(PasswordMismatch)
    else if d.username in users then Err(UsernameTaken)
    else if d.email != "" && !ValidateEmail(d.email) then Err(BadEmail)
    else Ok(users[d.username := NewAccount(d, hash, createdAt)])
  }

  /** What `login` ends in: one of its three errors, or the session it opens. */
  datatype LoginOutcome =
    | Blank          // user name or password left empty
    | NotFound       // no such user name
    | WrongPassword  // the digest of the typed password is not the stored one
    | Welcome(user: Account, ledger: seq<Expense>)

  /**
   * `login`: the user name is stripped, the password is taken as typed. On
   * success the session is a copy of the stored record plus its user name,
   * and the working ledger is the stored one (empty when the key is missing).
   */
  function Login(users: Users, username: string, password: string, hash: string -> string): (r: LoginOutcome)
    ensures r.Welcome? <==>
      Strip(username) != "" && password != "" && Strip(username) in users
      && users[Strip(username)].password == hash(password)
    ensures r == Blank <==> Strip(username) == "" || password == ""
    ensures r == NotFound <==> Strip(username) != "" && password != "" && Strip(username) !in users
    ensures r == WrongPassword <==>
      Strip(username) != "" && password != "" && Strip(username) in users
      && users[Strip(username)].password != hash(password)
    ensures r.Welcome? ==>
      r.user == users[Strip(username)].(username := Some(Strip(username)))
      && r.ledger == users[Strip(username)].expenses.GetOr([])
  {
    var u := Strip(username);
    if u == "" || password == "" then Blank
    else if u !in users then NotFound
    else if users[u].password != hash(password) then WrongPassword
    else Welcome(users[u].(username := Some(u)), users[u].expenses.GetOr([]))
  }

  /** Distinct passwords have distinct digests. */
  ghost predicate Injective(hash: string -> string)
  {
    forall a, b :: hash(a) == hash(b) ==> a == b
  }

  /**
   * Right after registering, the stored password logs the new user in under
   * any typed name that strips to the registered one, with an empty ledger.
   */
  lemma RegisterThenLogin(users: Users, d: RegisterForm, hash: string -> string, createdAt: string, name: string)
    requires Register(users, d, hash, createdAt).Ok?
    requires Strip(name) == d.username
    ensures Login(Register(users, d, hash, createdAt).value, name, d.password, hash).Welcome?
    ensures Login(Register(users, d, hash, createdAt).value, name, d.password, hash).ledger == []
  {
    var m := Register(users, d, hash, createdAt).value;
    LoginAs(m, name, d.password, hash);
  }

  /** The conditions under which `Login` opens a session, and the ledger it opens with. */
  lemma LoginAs(users: Users, username: string, password: string, hash: string -> string)
    requires Strip(username) in users && Strip(username) != "" && password != ""
    requires users[Strip(username)].password == hash(password)
    ensures Login(users, username, password, hash).Welcome?
    ensures Login(users, username, password, hash).ledger == users[Strip(username)].expenses.GetOr([])
  {
  }

  /**
   * Any other non-empty password is refused as a wrong password, never as an
   * unknown user, when distinct passwords have distinct digests.
   */
  lemma OtherPasswordRefused(users: Users, f: RegisterForm, hash: string -> string, createdAt: string, typed: string)
    requires Injective(hash)
    requires Register(users, Stripped(f), hash, createdAt).Ok?
    requires typed != "" && typed != Strip(f.password)
    ensures Login(Register(users, Stripped(f), hash, createdAt).value, f.username, typed, hash) == WrongPassword
  {
    StripIdempotent(f.username);
  }

  /**
   * Registration stores the digest of the stripped password but login hashes
   * the password as typed: typing at login the same padded password one typed
   * at registration is refused.
   */
  lemma PaddedPasswordLockedOut(users: Users, f: RegisterForm, hash: string -> string, createdAt: string)
    requires Injective(hash)
    requires Register(users, Stripped(f), hash, createdAt).Ok?
    requires Strip(f.password) != f.password
    ensures Login(Register(users, Stripped(f), hash, createdAt).value, f.username, f.password, hash) == WrongPassword
  {
    StripIdempotent(f.username);
    assert f.password != "";
  }

  /** The entries of the profile editor, as typed; `payment` comes from a read-only list. */
  datatype ProfileForm = ProfileForm(
    name: string, employeeId: string, companyName: string, department: string, email: string,
    newPassword: string, confirm: string, payment: string)

  /**
   * `save_profile`: a new password is wanted when its stripped text is not
   * empty; its stripped length must be 6 or more and its raw text must equal
   * the raw confirmation. The stripped e-mail must be empty or valid. Then
   * the record under `uname` gets the stripped name, employee number,
   * company, department and e-mail, the chosen payment method and, only when
   * a new password was wanted, the digest of the stripped new password.
   */
  function SaveProfile(users: Users, uname: string, f: ProfileForm, hash: string -> string): (r: Result<Users, FormError>)
    requires uname in users
    ensures r.Ok? <==>
      (Strip(f.newPassword) != "" ==> |Strip(f.newPassword)| >= 6 && f.newPassword == f.confirm)
      && (Strip(f.email) == "" || ValidateEmail(Strip(f.email)))
    ensures r == Err(ShortPassword) <==> Strip(f.newPassword) != "" && |Strip(f.newPassword)| < 6
    ensures r == Err(PasswordMismatch) <==>
      Strip(f.newPassword) != "" && |Strip(f.newPassword)| >= 6 && f.newPassword != f.confirm
    ensures r == Err(BadEmail) <==>
      (Strip(f.newPassword) != "" ==> |Strip(f.newPassword)| >= 6 && f.newPassword == f.confirm)
      && Strip(f.email) != "" && !ValidateEmail(Strip(f.email))
    ensures r.Ok? ==>
      r.value.Keys == users.Keys
      && (forall u :: u in users && u != uname ==> r.value[u] == users[u])
      && r.value[uname].expenses == users[uname].expenses
      && r.value[uname].createdAt == users[uname].createdAt
      && r.value[uname].username == users[uname].username
      && r.value[uname].name == Some(Strip(f.name))
      && r.value[uname].employeeId == Some(Strip(f.employeeId))
      && r.value[uname].companyName == Some(Strip(f.companyName))
      && r.value[uname].department == Some(Strip(f.department))
      && r.value[uname].email == Some(Strip(f.email))
      && r.value[uname].paymentMethod == Some(f.payment)
      && (r.value[uname].password == if Strip(f.newPassword) == "" then users[uname].password else hash(Strip(f.newPassword)))
  {
    var np := Strip(f.newPassword);
    var email := Strip(f.email);
    if np != "" && |np| < 6 then Err(ShortPassword)
    else if np != "" && f.newPassword != f.confirm then Err(PasswordMismatch)
    else if email != "" && !ValidateEmail(email) then Err(BadEmail)
    else
      var a := users[uname];
      var a' := a.(name := Some(Strip(f.name)), employeeId := Some(Strip(f.employeeId)),
                   companyName := Some(Strip(f.companyName)), department := Some(Strip(f.department)),
                   email := Some(email), paymentMethod := Some(f.payment),
                   password := if np != "" then hash(np) else a.password);
      Ok(users[uname := a'])
  }

  /**
   * After a saved password change the new password, typed without
   * surrounding space, logs in, and the password that used to log in no longer
   * does.
   */
  lemma ProfilePasswordChange(users: Users, uname: string, f: ProfileForm, hash: string -> string, former: string)
    requires Injective(hash)
    requires uname in users && Strip(uname) == uname && uname != ""
    requires SaveProfile(users, uname, f, hash).Ok?
    requires f.newPassword == Strip(f.newPassword) && f.newPassword != ""
    requires Login(users, uname, former, hash).Welcome? && former != f.newPassword
    ensures Login(SaveProfile(users, uname, f, hash).value, uname, f.newPassword, hash).Welcome?
    ensures Login(SaveProfile(users, uname, f, hash).value, uname, former, hash) == WrongPassword
  {
  }

  /** Leaving the new password blank keeps every login outcome for every user. */
  lemma ProfileKeepsLogins(users: Users, uname: string, f: ProfileForm, hash: string -> string, who: string, typed: string)
    requires uname in users
    requires SaveProfile(users, uname, f, hash).Ok?
    requires Strip(f.newPassword) == ""
    ensures Login(SaveProfile(users, uname, f, hash).value, who, typed, hash).Welcome?
        <==> Login(users, who, typed, hash).Welcome?
  {
    var m := SaveProfile(users, uname, f, hash).value;
    var u := Strip(who);
    if u == uname {
      assert m[u].password == users[u].password;
    } else if u in users {
      assert m[u] == users[u];
    }
  }
}

=== FILE: calendar.dfy ===
/**
 * The proleptic Gregorian calendar of Python's `datetime`: dates from
 * 0001-01-01 to 9999-12-31, day numbers as `date.toordinal()` gives them,
 * week days with Monday as 0, `datetime - timedelta(days=n)`, the comparison
 * of two `datetime` values, and `strptime`/`strftime` with the formats the
 * tracker uses.
 */
module Calendar {
  import opened Wrappers
  import opened Text

  datatype Date = Date(year: int, month: int, day: int)

  /** A `datetime`: a date and a time of day down to microseconds. */
  datatype DateTime = DateTime(date: Date, hour: int, minute: int, second: int, micro: int)

  predicate IsLeap(y: int)
  {
    y % 4 == 0 && (y % 100 != 0 || y % 400 == 0)
  }

  function DaysInMonth(y: int, m: int): (n: int)
    requires 1 <= m <= 12
    ensures 28 <= n <= 31
  {
    if m == 2 then (if IsLeap(y) then 29 else 28)
    else if m == 4 || m == 6 || m == 9 || m == 11 then 30
    else 31
  }

  predicate ValidDate(d: Date)
  {
    1 <= d.year <= 9999 && 1 <= d.month <= 12 && 1 <= d.day <= DaysInMonth(d.year, d.month)
  }

  predicate ValidDateTime(t: DateTime)
  {
    ValidDate(t.date) && 0 <= t.hour < 24 && 0 <= t.minute < 60 && 0 <= t.second < 60
    && 0 <= t.micro < 1000000
  }

  /** Midnight of a date: what `strptime` returns for a date-only format. */
  function AtMidnight(d: Date): (t: DateTime)
    ensures t.date == d && t.hour == t.minute == t.second == t.micro == 0
  {
    DateTime(d, 0, 0, 0, 0)
  }

  /**
   * Midnight starts the day: no time of a day comes before its midnight, and
   * midnight comes before every other time of that day.
   */
  lemma MidnightStartsTheDay(u: DateTime)
    requires ValidDateTime(u)
    ensures !Before(u, AtMidnight(u.date))
    ensures Before(AtMidnight(u.date), u) <==> (u.hour, u.minute, u.second, u.micro) != (0, 0, 0, 0)
  {
  }

  function YearDays(y: int): int
  {
    if IsLeap(y) then 366 else 365
  }

  /** The days of the years before `y`, counted year by year. */
  function DaysBeforeYear(y: int): (n: nat)
    requires y >= 1
  {
    if y == 1 then 0 else DaysBeforeYear(y - 1) + YearDays(y - 1)
  }

  /** The closed form Python's `datetime` module computes the same count with. */
  function DaysBeforeYearClosed(y: int): int
    requires y >= 1
  {
    var p := y - 1;
    p * 365 + p / 4 - p / 100 + p / 400
  }

  /** The days of the months of year `y` before month `m`. */
  function DaysBeforeMonth(y: int, m: int): (n: nat)
    requires 1 <= m <= 13
  {
    if m == 1 then 0 else DaysBeforeMonth(y, m - 1) + DaysInMonth(y, m - 1)
  }

  /** `date.toordinal()`: 0001-01-01 is day 1. */
  function DayNumber(d: Date): int
    requires ValidDate(d)
  {
    DaysBeforeYear(d.year) + DaysBeforeMonth(d.year, d.month) + d.day
  }

  /** `date.weekday()`: Monday is 0 and Sunday is 6. */
  function Weekday(d: Date): (w: int)
    requires ValidDate(d)
    ensures 0 <= w < 7
  {
    (DayNumber(d) + 6) % 7
  }

  /** The day before `d`. */
  function PrevDay(d: Date): Date
    requires ValidDate(d)
  {
    if d.day > 1 then Date(d.year, d.month, d.day - 1)
    else if d.month > 1 then Date(d.year, d.month - 1, DaysInMonth(d.year, d.month - 1))
    else Date(d.year - 1, 12, 31)
  }

  /** `date - timedelta(days=n)`; `None` where Python raises `OverflowError` (before year 1). */
  function SubtractDays(d: Date, n: nat): (r: Option<Date>)
    requires ValidDate(d)
    ensures r.Some? ==> ValidDate(r.value)
    decreases n
  {
    if n == 0 then Some(d)
    else if d == Date(1, 1, 1) then None
    else
      PrevDayStep(d);
      SubtractDays(PrevDay(d), n - 1)
  }

  /** `datetime - timedelta(days=n)`: the time of day is kept. */
  function SubtractDaysAt(t: DateTime, n: nat): (r: Option<DateTime>)
    requires ValidDate(t.date)
  {
    match SubtractDays(t.date, n)
    case None => None
    case Some(d) => Some(t.(date := d))
  }

  /** `a < b` on dates, field by field as Python compares them. */
  predicate DateBefore(a: Date, b: Date)
  {
    a.year < b.year
    || (a.year == b.year && (a.month < b.month || (a.month == b.month && a.day < b.day)))
  }

  /** `a < b` on `datetime` values: first the date, then the time of day. */
  predicate Before(a: DateTime, b: DateTime)
  {
    DateBefore(a.date, b.date)
    || (a.date == b.date
        && (a.hour, a.minute, a.second, a.micro) != (b.hour, b.minute, b.second, b.micro)
        && TimeBefore(a, b))
  }

  predicate TimeBefore(a: DateTime, b: DateTime)
  {
    a.hour < b.hour
    || (a.hour == b.hour
        && (a.minute < b.minute
            || (a.minute == b.minute
                && (a.second < b.second || (a.second == b.second && a.micro < b.micro)))))
  }

  lemma YearLength(y: int)
    requires y >= 1
    ensures DaysBeforeYearClosed(y + 1) - DaysBeforeYearClosed(y) == YearDays(y)
  {
    StepOver4(y);
    StepOver100(y);
    StepOver400(y);
  }

  /** `y // 4` grows by one exactly at a multiple of 4. */
  lemma StepOver4(y: int)
    ensures y / 4 - (y - 1) / 4 == if y % 4 == 0 then 1 else 0
  {
  }

  lemma StepOver100(y: int)
    ensures y / 100 - (y - 1) / 100 == if y % 100 == 0 then 1 else 0
  {
  }

  lemma StepOver400(y: int)
    ensures y / 400 - (y - 1) / 400 == if y % 400 == 0 then 1 else 0
  {
  }

  /** Counting year by year agrees with the closed form. */
  lemma {:induction false} DaysBeforeYearIsClosed(y: int)
    requires y >= 1
    ensures DaysBeforeYear(y) == DaysBeforeYearClosed(y)
  {
    if y > 1 {
      DaysBeforeYearIsClosed(y - 1);
      YearLength(y - 1);
    }
  }

  lemma {:induction false} MonthsBefore(y: int, m: int)
    requires 1 <= m <= 12
    ensures DaysBeforeMonth(y, m) + DaysInMonth(y, m) <= DaysBeforeMonth(y, 13)
    decreases 12 - m
  {
    if m < 12 {
      MonthsBefore(y, m + 1);
    }
  }

  lemma WholeYear(y: int)
    ensures DaysBeforeMonth(y, 13) == YearDays(y)
  {
    assert DaysBeforeMonth(y, 2) == 31;
    assert DaysBeforeMonth(y, 3) == 31 + DaysInMonth(y, 2);
    assert DaysBeforeMonth(y, 4) == DaysBeforeMonth(y, 3) + 31;
    assert DaysBeforeMonth(y, 5) == DaysBeforeMonth(y, 4) + 30;
    assert DaysBeforeMonth(y, 6) == DaysBeforeMonth(y, 5) + 31;
    assert DaysBeforeMonth(y, 7) == DaysBeforeMonth(y, 6) + 30;
    assert DaysBeforeMonth(y, 8) == DaysBeforeMonth(y, 7) + 31;
    assert DaysBeforeMonth(y, 9) == DaysBeforeMonth(y, 8) + 31;
    assert DaysBeforeMonth(y, 10) == DaysBeforeMonth(y, 9) + 30;
    assert DaysBeforeMonth(y, 11) == DaysBeforeMonth(y, 10) + 31;
    assert DaysBeforeMonth(y, 12) == DaysBeforeMonth(y, 11) + 30;
  }

  /** The day before has the day number one less, and is a valid date when `d` is not 0001-01-01. */
  lemma PrevDayStep(d: Date)
    requires ValidDate(d) && d != Date(1, 1, 1)
    ensures ValidDate(PrevDay(d))
    ensures DayNumber(PrevDay(d)) == DayNumber(d) - 1
  {
    if d.day == 1 && d.month == 1 {
      WholeYear(d.year - 1);
    }
  }

  /** Stepping back `n` days fails exactly when it would pass day 1. */
  lemma {:induction false} SubtractDaysDefined(d: Date, n: nat)
    requires ValidDate(d)
    ensures SubtractDays(d, n).Some? <==> n < DayNumber(d)
    decreases n
  {
    FirstDayNumber(d);
    if n > 0 && d != Date(1, 1, 1) {
      var p := BackOneDay(d, n);
      SubtractDaysDefined(p, n - 1);
    }
  }

  /** Otherwise it lowers the day number by exactly `n`. */
  lemma {:induction false} SubtractDaysNumber(d: Date, n: nat)
    requires ValidDate(d) && SubtractDays(d, n).Some?
    ensures DayNumber(SubtractDays(d, n).value) == DayNumber(d) - n
    decreases n
  {
    if n > 0 {
      var p := BackOneDay(d, n);
      SubtractDaysNumber(p, n - 1);
    }
  }

  lemma BackOneDay(d: Date, n: nat) returns (p: Date)
    requires ValidDate(d) && d != Date(1, 1, 1) && n > 0
    ensures ValidDate(p) && DayNumber(p) == DayNumber(d) - 1
    ensures SubtractDays(d, n) == SubtractDays(p, n - 1)
  {
    PrevDayStep(d);
    p := PrevDay(d);
  }

  /** Every valid date has day number 1 or more, and only 0001-01-01 has 1. */
  lemma FirstDayNumber(d: Date)
    requires ValidDate(d)
    ensures DayNumber(d) >= 1
    ensures DayNumber(d) == 1 <==> d == Date(1, 1, 1)
  {
    if d != Date(1, 1, 1) {
      assert DayNumber(d) >= 2 by {
        if d.year > 1 {
          assert DaysBeforeYear(d.year) >= YearDays(d.year - 1);
        } else if d.month > 1 {
          assert DaysBeforeMonth(d.year, d.month) >= 31;
        }
      }
    }
  }

  /** Going back `weekday()` days from a date lands on a Monday of the same week. */
  lemma WeekStart(d: Date)
    requires ValidDate(d)
    ensures SubtractDays(d, Weekday(d)).Some?
    ensures Weekday(SubtractDays(d, Weekday(d)).value) == 0
    ensures DayNumber(d) - DayNumber(SubtractDays(d, Weekday(d)).value) == Weekday(d)
  {
    FirstDayNumber(d);
    SubtractDaysDefined(d, Weekday(d));
    SubtractDaysNumber(d, Weekday(d));
  }

  lemma DaysBeforeMonthGrows(y: int, m: int, m': int)
    requires 1 <= m < m' <= 12
    ensures DaysBeforeMonth(y, m) + DaysInMonth(y, m) <= DaysBeforeMonth(y, m')
    decreases m' - m
  {
    if m + 1 < m' {
      DaysBeforeMonthGrows(y, m + 1, m');
    }
  }

  lemma DaysBeforeYearGrows(y: int, y': int)
    requires 1 <= y < y'
    ensures DaysBeforeYear(y) + YearDays(y) <= DaysBeforeYear(y')
    decreases y' - y
  {
    if y + 1 < y' {
      DaysBeforeYearGrows(y + 1, y');
    }
  }

  /** Python's field-by-field order on dates is the order of their day numbers. */
  lemma DateBeforeIffNumber(a: Date, b: Date)
    requires ValidDate(a) && ValidDate(b)
    ensures DateBefore(a, b) <==> DayNumber(a) < DayNumber(b)
    ensures a == b <==> DayNumber(a) == DayNumber(b)
  {
    if DateBefore(a, b) {
      NumberIncreases(a, b);
    } else if DateBefore(b, a) {
      NumberIncreases(b, a);
    } else {
      assert a == b;
    }
  }

  lemma NumberIncreases(a: Date, b: Date)
    requires ValidDate(a) && ValidDate(b) && DateBefore(a, b)
    ensures DayNumber(a) < DayNumber(b)
  {
    if a.year < b.year {
      MonthsBefore(a.year, a.month);
      WholeYear(a.year);
      DaysBeforeYearGrows(a.year, b.year);
    } else if a.month < b.month {
      DaysBeforeMonthGrows(a.year, a.month, b.month);
    }
  }

  // ---- strptime(text, "%Y-%m-%d") ----

  /**
   * The month field `(1[0-2]|0[1-9]|[1-9])` and the `-` after it. The regex
   * engine backtracks among the alternatives until one is followed by `-`; at
   * most one is. Gives the month and the text after the `-`.
   */
  function MonthField(t: string): Option<(int, string)>
  {
    if |t| >= 3 && t[0] == '1' && '0' <= t[1] <= '2' && t[2] == '-' then
      Some((DigitsValue(t[..2]), t[3..]))
    else if |t| >= 3 && t[0] == '0' && '1' <= t[1] <= '9' && t[2] == '-' then
      Some((DigitsValue(t[..2]), t[3..]))
    else if |t| >= 2 && '1' <= t[0] <= '9' && t[1] == '-' then
      Some((DigitsValue(t[..1]), t[2..]))
    else None
  }

  /**
   * The day field `(3[01]|[12]\d|0[1-9]|[1-9]| [1-9])`: the first alternative
   * that matches a prefix of `u` wins, since nothing follows it in the
   * pattern. Gives the day and the number of characters consumed.
   */
  function DayField(u: string): (r: Option<(int, nat)>)
    ensures r.Some? ==> 1 <= r.value.1 <= |u|
  {
    if |u| >= 2 && u[0] == '3' && '0' <= u[1] <= '1' then Some((DigitsValue(u[..2]), 2))
    else if |u| >= 2 && '1' <= u[0] <= '2' && IsDigit(u[1]) then Some((DigitsValue(u[..2]), 2))
    else if |u| >= 2 && u[0] == '0' && '1' <= u[1] <= '9' then Some((DigitsValue(u[..2]), 2))
    else if |u| >= 1 && '1' <= u[0] <= '9' then Some((DigitsValue(u[..1]), 1))
    else if |u| >= 2 && u[0] == ' ' && '1' <= u[1] <= '9' then Some((DigitValue(u[1]), 2))
    else None
  }

  /**
   * `datetime.strptime(s, "%Y-%m-%d")`: four year digits, `-`, the month
   * field, `-`, the day field, and nothing left over; `None` where Python
   * raises `ValueError` (no match, unconverted data, or no such date).
   */
  function ParseDate(s: string): (r: Option<Date>)
    ensures r.Some? ==> ValidDate(r.value)
  {
    if |s| < 5 || !AllDigits(s[..4]) || s[4] != '-' then None
    else
      match MonthField(s[5..])
      case None => None
      case Some((m, u)) =>
        match DayField(u)
        case None => None
        case Some((day, used)) =>
          var d := Date(DigitsValue(s[..4]), m, day);
          if used == |u| && ValidDate(d) then Some(d) else None
  }

  // ---- strftime ----

  /**
   * `strftime("%Y-%m-%d")`. The year is written without padding, as the C
   * library of Linux writes `%Y`; from year 1000 on it has four digits.
   */
  function FormatDate(d: Date): (r: string)
    requires ValidDate(d)
  {
    NatToString(d.year) + "-" + ZeroPad(d.month, 2) + "-" + ZeroPad(d.day, 2)
  }

  /** `strftime("%H:%M")`. */
  function FormatClock(t: DateTime): string
    requires ValidDateTime(t)
  {
    ZeroPad(t.hour, 2) + ":" + ZeroPad(t.minute, 2)
  }

  /** `strftime("%Y-%m-%d %H:%M:%S")`, the form of `created_at`, `added_at` and `updated_at`. */
  function FormatStamp(t: DateTime): string
    requires ValidDateTime(t)
  {
    FormatDate(t.date) + " " + FormatClock(t) + ":" + ZeroPad(t.second, 2)
  }

  /** `strftime("%Y-%m-%d %H:%M")`, the report date. */
  function FormatMinutes(t: DateTime): string
    requires ValidDateTime(t)
  {
    FormatDate(t.date) + " " + FormatClock(t)
  }

  lemma TwoDigits(u: string)
    requires AllDigits(u) && |u| == 2
    ensures DigitsValue(u) == 10 * DigitValue(u[0]) + DigitValue(u[1])
  {
    assert u[..1][..0] == [];
    assert u[..1][0] == u[0];
    assert DigitsValue(u[..1]) == DigitValue(u[0]);
    assert u[..|u| - 1] == u[..1];
  }

  lemma PaddedTwo(n: nat)
    requires 1 <= n < 100
    ensures |ZeroPad(n, 2)| == 2
    ensures DigitsValue(ZeroPad(n, 2)) == n
    ensures 10 * DigitValue(ZeroPad(n, 2)[0]) + DigitValue(ZeroPad(n, 2)[1]) == n
  {
    assert Pow10(2) == 100;
    ZeroPadWidth(n, 2);
    ZeroPadRoundTrip(n, 2);
    TwoDigits(ZeroPad(n, 2));
  }

  lemma MonthFieldOf(m: int, rest: string)
    requires 1 <= m <= 12
    ensures MonthField(ZeroPad(m, 2) + "-" + rest) == Some((m, rest))
  {
    var mm := ZeroPad(m, 2);
    var t := mm + "-" + rest;
    PaddedTwo(m);
    assert t[..2] == mm;
    assert t[2] == '-';
    assert t[3..] == rest;
  }

  lemma DayFieldOf(day: int)
    requires 1 <= day <= 31
    ensures DayField(ZeroPad(day, 2)) == Some((day, 2))
  {
    var dd := ZeroPad(day, 2);
    PaddedTwo(day);
    assert dd[..2] == dd;
  }

  lemma YearText(y: int)
    requires 1000 <= y <= 9999
    ensures |NatToString(y)| == 4
    ensures DigitsValue(NatToString(y)) == y
  {
    assert Pow10(4) == 10000;
    assert Pow10(3) == 1000 && Pow10(2) == 100 && Pow10(1) == 10;
    NatToStringLength(y, 4);
    NatToStringRoundTrip(y);
    NatToStringBound(NatToString(y));
  }

  lemma {:induction false} NatToStringBound(s: string)
    requires AllDigits(s)
    ensures DigitsValue(s) < Pow10(|s|)
  {
    if s != [] {
      NatToStringBound(s[..|s| - 1]);
    }
  }

  /** A date the tracker writes reads back as the same date (from year 1000 on). */
  lemma ParseFormatDate(d: Date)
    requires ValidDate(d) && d.year >= 1000
    ensures ParseDate(FormatDate(d)) == Some(d)
  {
    var yy := NatToString(d.year);
    var dd := ZeroPad(d.day, 2);
    var rest := ZeroPad(d.month, 2) + "-" + dd;
    var s := FormatDate(d);
    YearText(d.year);
    assert s == yy + "-" + rest;
    assert s[..4] == yy;
    assert s[4] == '-';
    assert s[5..] == ZeroPad(d.month, 2) + "-" + dd;
    MonthFieldOf(d.month, dd);
    DayFieldOf(d.day);
    PaddedTwo(d.day);
  }
}

=== FILE: decimal.dfy ===
/**
 * Amounts as the tracker reads and prints them: Python's `float(text)` for
 * plain decimal numerals, and the `f"{amount:.2f}"` form the ledger view shows.
 * Amounts are exact reals here, not binary floating point.
 */
module Decimal {
  import opened Wrappers
  import opened Text

  /** An unsigned numeral `ddd`, `ddd.`, `ddd.ddd` or `.ddd`. */
  function ParseUnsigned(b: string): (r: Option<real>)
    ensures r.Some? ==> r.value >= 0.0
  {
    var k := Find(b, '.');
    var whole := b[..k];
    var frac := if k < |b| then b[k + 1..] else [];
    if AllDigits(whole) && AllDigits(frac) && |whole| + |frac| > 0 then
      Some(DigitsValue(whole) as real + FractionValue(frac))
    else None
  }

  /** The value of the digits after a decimal point: `0.d1d2...`. */
  function FractionValue(frac: string): (v: real)
    requires AllDigits(frac)
    ensures 0.0 <= v <= 1.0
  {
    if frac == [] then 0.0 else (DigitValue(frac[0]) as real + FractionValue(frac[1..])) / 10.0
  }

  lemma TwoDecimals(frac: string)
    requires AllDigits(frac) && |frac| == 2
    ensures FractionValue(frac) == DigitsValue(frac) as real / 100.0
  {
    var a, b := DigitValue(frac[0]), DigitValue(frac[1]);
    assert frac[1..][1..] == [];
    assert FractionValue(frac[1..]) == b as real / 10.0;
    assert frac[..1][..0] == [];
    assert frac[..|frac| - 1] == frac[..1];
    assert DigitsValue(frac[..1]) == a;
    assert DigitsValue(frac) == a * 10 + b;
  }

  /**
   * Python's `float(text)` on the decimal numerals a user types: white space
   * around the numeral is ignored and one leading sign is allowed.
   */
  function ParseFloat(s: string): (r: Option<real>)
  {
    ParseSigned(Strip(s))
  }

  /** A numeral with an optional leading sign. */
  function ParseSigned(t: string): (r: Option<real>)
    ensures t == [] ==> r == None
    ensures t != [] && t[0] == '-' ==>
      (r.Some? <==> ParseUnsigned(t[1..]).Some?) && (r.Some? ==> r.value == -ParseUnsigned(t[1..]).value)
    ensures t != [] && t[0] == '+' ==> r == ParseUnsigned(t[1..])
    ensures t != [] && t[0] != '-' && t[0] != '+' ==> r == ParseUnsigned(t)
  {
    if t == [] then None
    else if t[0] == '-' then
      match ParseUnsigned(t[1..]) case None => None case Some(v) => Some(-v)
    else if t[0] == '+' then ParseUnsigned(t[1..])
    else ParseUnsigned(t)
  }

  /** `x * 100` rounded to the nearest integer, ties to the even one (the rounding of `:.2f`). */
  function Cents(x: real): (c: int)
    ensures -1.0 / 2.0 <= x * 100.0 - c as real <= 1.0 / 2.0
  {
    RoundHalfEven(x * 100.0)
  }

  function RoundHalfEven(n: real): (c: int)
    ensures -1.0 / 2.0 <= n - c as real <= 1.0 / 2.0
  {
    var f := n.Floor;
    var d := n - f as real;
    if d > 1.0 / 2.0 || (d == 1.0 / 2.0 && f % 2 != 0) then f + 1 else f
  }

  /** The value `f"{x:.2f}"` stands for: `x` rounded to whole cents. */
  function Round2(x: real): real
  {
    Cents(x) as real / 100.0
  }

  function Abs(c: int): nat
  {
    if c < 0 then -c else c
  }

  /**
   * `f"{x:.2f}"`: an optional minus sign, the whole part, a point and exactly
   * two decimals. The sign follows `x` itself, so `-0.001` prints as `-0.00`.
   */
  function Fixed2(x: real): (r: string)
    ensures r != []
  {
    SignedCents(x < 0.0, Abs(Cents(x)))
  }

  /** `m` cents as `:.2f` writes them, after a minus sign when `negative`. */
  function SignedCents(negative: bool, m: nat): (r: string)
    ensures r != []
  {
    if negative then "-" + CentsText(m) else CentsText(m)
  }

  /** The unsigned part of `f"{x:.2f}"` for `m` cents. */
  function CentsText(m: nat): (r: string)
    ensures r != [] && IsDigit(r[|r| - 1]) && IsDigit(r[0])
  {
    var cents := ZeroPad(m % 100, 2);
    ZeroPadWidth(m % 100, 2);
    NatToString(m / 100) + "." + cents
  }

  lemma CentsTextRoundTrip(m: nat)
    ensures ParseUnsigned(CentsText(m)) == Some(m as real / 100.0)
  {
    var q, r := m / 100, m % 100;
    var whole := NatToString(q);
    var cents := ZeroPad(r, 2);
    var body := CentsText(m);
    ZeroPadWidth(r, 2);
    NatToStringRoundTrip(q);
    ZeroPadRoundTrip(r, 2);
    FindPastDigits(whole, "." + cents);
    assert body == whole + ("." + cents);
    assert body[..|whole|] == whole;
    assert body[|whole| + 1..] == cents;
    TwoDecimals(cents);
    CentsValue(m);
  }

  lemma CentsValue(m: nat)
    ensures (m / 100) as real + (m % 100) as real / 100.0 == m as real / 100.0
  {
    var q, r := m / 100, m % 100;
    assert m == 100 * q + r;
    assert m as real == 100.0 * q as real + r as real;
  }

  lemma {:induction false} FindPastDigits(digits: string, rest: string)
    requires AllDigits(digits) && rest != [] && rest[0] == '.'
    ensures Find(digits + rest, '.') == |digits|
  {
    if digits != [] {
      assert (digits + rest)[1..] == digits[1..] + rest;
      FindPastDigits(digits[1..], rest);
    }
  }

  /** A non-negative amount prints as its whole cents, with no sign. */
  lemma PositiveSign(x: real)
    requires x >= 0.0
    ensures Cents(x) >= 0 && Fixed2(x) == SignedCents(false, Cents(x))
    ensures Round2(x) == Cents(x) as real / 100.0
  {
  }

  /** The unsigned `:.2f` text of `m` cents reads back as `m / 100`. */
  lemma CentsReadBack(m: nat)
    ensures ParseFloat(SignedCents(false, m)) == Some(m as real / 100.0)
  {
    CentsTextRoundTrip(m);
    UnsignedParse(CentsText(m), m as real / 100.0);
  }

  /** The `:.2f` text of `m` cents after a minus sign reads back as `-m / 100`. */
  lemma NegativeReadBack(m: nat)
    ensures ParseFloat(SignedCents(true, m)) == Some(-(m as real / 100.0))
  {
    NegativeSigned(m);
    MinusTrimmed(SignedCents(true, m), CentsText(m));
  }

  lemma NegativeSigned(m: nat)
    ensures ParseSigned(SignedCents(true, m)) == Some(-(m as real / 100.0))
  {
    CentsTextRoundTrip(m);
    MinusSigned(SignedCents(true, m), CentsText(m), m as real / 100.0);
  }

  lemma MinusSigned(t: string, body: string, v: real)
    requires t == "-" + body && ParseUnsigned(body) == Some(v)
    ensures ParseSigned(t) == Some(-v)
  {
    assert t[1..] == body;
  }

  /** A minus sign before a numeral ending in a digit leaves `float` nothing to strip. */
  lemma MinusTrimmed(t: string, body: string)
    requires t == "-" + body && body != [] && IsDigit(body[|body| - 1])
    ensures ParseFloat(t) == ParseSigned(t)
  {
    assert t[|t| - 1] == body[|body| - 1];
    ParseFloatTrimmed(t);
  }

  lemma UnsignedParse(body: string, v: real)
    requires body != [] && IsDigit(body[0]) && IsDigit(body[|body| - 1])
    requires ParseUnsigned(body) == Some(v)
    ensures ParseFloat(body) == Some(v)
  {
    ParseFloatTrimmed(body);
  }

  lemma ParseFloatTrimmed(s: string)
    requires s != [] && !IsSpace(s[0]) && !IsSpace(s[|s| - 1])
    ensures ParseFloat(s) == ParseSigned(s)
  {
    StripTrimmed(s);
  }
}

=== FILE: email.dfy ===
/**
 * The e-mail check of the desktop tracker: `re.match` with the pattern
 * `^[a-zA-Z0-9._%+-]+@[a-zA-Z0-9.-]+\.[a-zA-Z]{2,}$`.
 */
module Email {
  import opened Text

  predicate Letter(c: char)
  {
    'a' <= c <= 'z' || 'A' <= c <= 'Z'
  }

  /** The class `[a-zA-Z0-9._%+-]` of the part before the `@`. */
  predicate LocalChar(c: char)
  {
    Letter(c) || IsDigit(c) || c in "._%+-"
  }

  /** The class `[a-zA-Z0-9.-]` of the domain. */
  predicate DomainChar(c: char)
  {
    Letter(c) || IsDigit(c) || c == '.' || c == '-'
  }

  predicate AllLocal(s: string)
  {
    forall i :: 0 <= i < |s| ==> LocalChar(s[i])
  }

  predicate AllDomain(s: string)
  {
    forall i :: 0 <= i < |s| ==> DomainChar(s[i])
  }

  predicate AllLetters(s: string)
  {
    forall i :: 0 <= i < |s| ==> Letter(s[i])
  }

  /**
   * One way the pattern can match all of `s`: the `@` at `at`, the escaped
   * `\.` at `dot`, so `s[..at]` is the local part, `s[at + 1..dot]` the
   * domain and `s[dot + 1..]` the final run of two or more letters.
   */
  predicate MatchesAt(s: string, at: int, dot: int)
  {
    0 < at < dot < |s| && s[at] == '@' && s[dot] == '.'
    && AllLocal(s[..at])
    && at + 1 < dot && AllDomain(s[at + 1..dot])
    && |s| - dot - 1 >= 2 && AllLetters(s[dot + 1..])
  }

  /** The pattern matches the whole of `s` for some choice the regex engine may backtrack to. */
  predicate Matches(s: string)
  {
    exists at, dot | 0 <= at < dot < |s| :: MatchesAt(s, at, dot)
  }

  /**
   * `validate_email`: `re.match` anchors at the start, and `$` matches at the
   * end of the text or just before a final line feed.
   */
  predicate ValidateEmail(s: string)
  {
    Matches(s) || (s != [] && s[|s| - 1] == '\n' && Matches(s[..|s| - 1]))
  }

  /**
   * The same language described character by character: one `@`, not first;
   * local characters before it; domain characters after it; and the last
   * `.` of the domain is not its first character and is followed by at least
   * two letters and nothing else.
   */
  predicate Shape(s: string)
  {
    var at := Find(s, '@');
    at < |s| && at > 0 && AllLocal(s[..at])
    && var d := s[at + 1..];
    AllDomain(d)
    && var k := FindLast(d, '.');
    k >= 1 && |d| - k - 1 >= 2 && AllLetters(d[k + 1..])
  }

  /** The regex and the character-level description accept the same strings. */
  lemma MatchesIffShape(s: string)
    ensures Matches(s) <==> Shape(s)
  {
    if Matches(s) {
      var at, dot :| MatchesAt(s, at, dot);
      ShapeOfMatch(s, at, dot);
    }
    if Shape(s) {
      var at := Find(s, '@');
      var d := s[at + 1..];
      var k := FindLast(d, '.');
      var dot := at + 1 + k;
      assert s[at + 1..dot] == d[..k];
      assert s[dot + 1..] == d[k + 1..];
      assert MatchesAt(s, at, dot);
    }
  }

  lemma ShapeOfMatch(s: string, at: int, dot: int)
    requires MatchesAt(s, at, dot)
    ensures Shape(s)
  {
    assert forall j :: 0 <= j < at ==> s[..at][j] == s[j];
    assert Find(s, '@') == at by {
      assert forall j :: 0 <= j < at ==> s[j] != '@' by {
        forall j | 0 <= j < at
          ensures s[j] != '@'
        {
          assert LocalChar(s[..at][j]);
        }
      }
      FirstAt(s, '@', at);
    }
    var d := s[at + 1..];
    var k := dot - at - 1;
    assert d[..k] == s[at + 1..dot];
    assert d[k + 1..] == s[dot + 1..];
    assert AllDomain(d) by {
      forall i | 0 <= i < |d|
        ensures DomainChar(d[i])
      {
        if i < k {
          assert d[i] == d[..k][i];
        } else if k < i {
          assert d[i] == d[k + 1..][i - k - 1];
        }
      }
    }
    assert FindLast(d, '.') == k by {
      forall j | k < j < |d|
        ensures d[j] != '.'
      {
        assert d[j] == d[k + 1..][j - k - 1];
      }
      LastAt(d, '.', k);
    }
  }

  lemma {:induction false} FirstAt(s: string, c: char, k: nat)
    requires k < |s| && s[k] == c
    requires forall j :: 0 <= j < k ==> s[j] != c
    ensures Find(s, c) == k
  {
    if k > 0 {
      FirstAt(s[1..], c, k - 1);
    }
  }

  lemma {:induction false} LastAt(s: string, c: char, k: nat)
    requires k < |s| && s[k] == c
    requires forall j :: k < j < |s| ==> s[j] != c
    ensures FindLast(s, c) == k
  {
    if k < |s| - 1 {
      LastAt(s[..|s| - 1], c, k);
    }
  }

  /**
   * The tracker strips the address before checking it, and stripped text
   * never ends in a line feed, so on it the check is exactly `Shape`.
   */
  lemma ValidateStripped(s: string)
    ensures ValidateEmail(Strip(s)) <==> Shape(Strip(s))
  {
    var t := Strip(s);
    MatchesIffShape(t);
    if t != [] {
      assert IsSpace('\n');
    }
  }

  /** Every accepted address has exactly one `@`. */
  lemma OneAt(s: string, i: int, j: int)
    requires Shape(s)
    requires 0 <= i < j < |s| && s[i] == '@'
    ensures s[j] != '@'
  {
    var at := Find(s, '@');
    var d := s[at + 1..];
    assert i == at;
    assert DomainChar(d[j - at - 1]);
  }
}

=== FILE: filtering.dfy ===
/**
 * The search and period filter of the desktop tracker. A record is kept
 * when the search text occurs in its from, to, type and notes, and its date
 * falls in the chosen period as measured from `now`. The filtered list keeps
 * the ledger's order.
 */
module Filtering {
  import opened Wrappers
  import opened Text
  import opened Calendar
  import opened Records

  /** The five choices of the period list: all, today, this week, this month, the last 30 days. */
  datatype Period = AllTime | Today | ThisWeek | ThisMonth | Last30Days

  /** The text the search looks in: from, to, type and notes, joined by spaces, lower-cased. */
  function Searchable(e: Expense): string
  {
    Lower(e.origin.GetOr("") + " " + e.destination.GetOr("") + " " + e.kind.GetOr("") + " " + e.notes.GetOr(""))
  }

  /** `needle` is the search entry stripped and lower-cased; an empty one lets everything through. */
  predicate SearchPasses(needle: string, e: Expense)
  {
    needle == "" || Contains(Searchable(e), needle)
  }

  /** The record's date at midnight is not earlier than `start`; no start (an overflow) keeps nothing. */
  predicate NotBefore(d: Date, start: Option<DateTime>)
  {
    start.Some? && !Before(AtMidnight(d), start.value)
  }

  /**
   * The period test. Apart from "all", the stored date must parse as
   * `%Y-%m-%d`. "This week" starts at `now` moved back to Monday and "last 30
   * days" at `now` moved back 30 days, both keeping `now`'s time of day; no
   * period has an upper bound.
   */
  predicate PeriodPasses(p: Period, now: DateTime, e: Expense)
    requires ValidDateTime(now)
  {
    p == AllTime ||
    match ParseDate(e.date.GetOr(""))
    case None => false
    case Some(d) =>
      match p
      case Today => d == now.date
      case ThisWeek => NotBefore(d, SubtractDaysAt(now, Weekday(now.date)))
      case ThisMonth => d.month == now.date.month && d.year == now.date.year
      case Last30Days => NotBefore(d, SubtractDaysAt(now, 30))
      case AllTime => true
  }

  predicate Keep(needle: string, p: Period, now: DateTime, e: Expense)
    requires ValidDateTime(now)
  {
    SearchPasses(needle, e) && PeriodPasses(p, now, e)
  }

  /** `filter_expenses`: the records of the ledger that pass both tests, in ledger order. */
  function Filtered(s: seq<Expense>, needle: string, p: Period, now: DateTime): (r: seq<Expense>)
    requires ValidDateTime(now)
    ensures |r| <= |s|
  {
    if s == [] then []
    else
      var last := s[|s| - 1];
      Filtered(s[..|s| - 1], needle, p, now) + (if Keep(needle, p, now, last) then [last] else [])
  }

  /** The loop of `filter_expenses`: one pass over the ledger, appending each record that passes. */
  method FilterLoop(s: seq<Expense>, needle: string, p: Period, now: DateTime) returns (r: seq<Expense>)
    requires ValidDateTime(now)
    ensures r == Filtered(s, needle, p, now)
  {
    r := [];
    var i := 0;
    while i < |s|
      invariant 0 <= i <= |s|
      invariant r == Filtered(s[..i], needle, p, now)
    {
      assert s[..i + 1][..i] == s[..i];
      if Keep(needle, p, now, s[i]) {
        r := r + [s[i]];
      }
      i := i + 1;
    }
    assert s[..i] == s;
  }

  /** `r` can be obtained from `s` by leaving elements out. */
  predicate Subsequence(r: seq<Expense>, s: seq<Expense>)
    decreases |s|
  {
    if s == [] then r == []
    else
      || Subsequence(r, s[..|s| - 1])
      || (r != [] && r[|r| - 1] == s[|s| - 1] && Subsequence(r[..|r| - 1], s[..|s| - 1]))
  }

  /** The filtered list is the ledger with some records left out, in the same order. */
  lemma {:induction false} FilteredIsSubsequence(s: seq<Expense>, needle: string, p: Period, now: DateTime)
    requires ValidDateTime(now)
    ensures Subsequence(Filtered(s, needle, p, now), s)
  {
    if s != [] {
      var init := s[..|s| - 1];
      var r := Filtered(s, needle, p, now);
      FilteredIsSubsequence(init, needle, p, now);
      if Keep(needle, p, now, s[|s| - 1]) {
        assert r == Filtered(init, needle, p, now) + [s[|s| - 1]];
        assert r[..|r| - 1] == Filtered(init, needle, p, now);
        assert Subsequence(r[..|r| - 1], init);
      } else {
        assert r == Filtered(init, needle, p, now);
      }
    }
  }

  /** With no negative amounts, a list with records left out never totals more than the list. */
  lemma {:induction false} SubsequenceTotal(r: seq<Expense>, s: seq<Expense>)
    requires Subsequence(r, s)
    requires forall i :: 0 <= i < |s| ==> Amount(s[i]) >= 0.0
    ensures Total(r) <= Total(s)
    decreases |s|
  {
    if s != [] {
      var init := s[..|s| - 1];
      assert forall i :: 0 <= i < |init| ==> Amount(init[i]) >= 0.0 by {
        forall i | 0 <= i < |init| ensures Amount(init[i]) >= 0.0 {
          assert init[i] == s[i];
        }
      }
      if Subsequence(r, init) {
        SubsequenceTotal(r, init);
      } else {
        SubsequenceTotal(r[..|r| - 1], init);
      }
    }
  }

  /** The total shown under an active filter is at most the ledger's total, when no amount is negative. */
  lemma FilteredTotal(s: seq<Expense>, needle: string, p: Period, now: DateTime)
    requires ValidDateTime(now)
    requires forall i :: 0 <= i < |s| ==> Amount(s[i]) >= 0.0
    ensures Total(Filtered(s, needle, p, now)) <= Total(s)
  {
    FilteredIsSubsequence(s, needle, p, now);
    SubsequenceTotal(Filtered(s, needle, p, now), s);
  }

  /** A record with only its from field set. */
  function From(place: string): (e: Expense)
    ensures e.origin == Some(place) && e.destination.None? && e.kind.None? && e.notes.None?
  {
    Expense(None, Some(place), None, None, None, None, None, None, None, None, None, None, None)
  }

  /**
   * Under an active search the table's rows and the ledger's positions part
   * ways: searching "b" in a ledger of a trip from "a" and a trip from "b"
   * shows the second trip on the first row, while position 0 of the ledger
   * is the first trip. Edit and delete address the ledger by row number.
   */
  lemma DisplayIndexIsNotLedgerIndex(now: DateTime)
    requires ValidDateTime(now)
    ensures Filtered([From("a"), From("b")], "b", AllTime, now) == [From("b")]
    ensures Filtered([From("a"), From("b")], "b", AllTime, now)[0] != [From("a"), From("b")][0]
  {
    var a, b := From("a"), From("b");
    assert Searchable(a) == "a   " && Searchable(b) == "b   ";
    assert !Contains(Searchable(a), "b") by {
      forall i | 0 <= i <= 4
        ensures !OccursAt("a   ", "b", i)
      {
        if i < 4 {
          assert "a   "[i..i + 1][0] == "a   "[i];
        }
      }
    }
    assert OccursAt(Searchable(b), "b", 0);
    assert [a, b][..1] == [a];
    assert [a, b][..1][..0] == [];
  }

  /** A record is in the filtered list exactly when it is in the ledger and passes both tests. */
  lemma {:induction false} FilteredMembers(s: seq<Expense>, needle: string, p: Period, now: DateTime, x: Expense)
    requires ValidDateTime(now)
    ensures x in Filtered(s, needle, p, now) <==> x in s && Keep(needle, p, now, x)
  {
    if s != [] {
      var init := s[..|s| - 1];
      FilteredMembers(init, needle, p, now, x);
      assert s == init + [s[|s| - 1]];
    }
  }

  /** A record passing both tests is kept as many times as the ledger holds it; one failing either is not kept. */
  lemma {:induction false} FilteredCount(s: seq<Expense>, needle: string, p: Period, now: DateTime, x: Expense)
    requires ValidDateTime(now)
    ensures multiset(Filtered(s, needle, p, now))[x] == if Keep(needle, p, now, x) then multiset(s)[x] else 0
  {
    if s != [] {
      var init := s[..|s| - 1];
      FilteredCount(init, needle, p, now, x);
      assert s == init + [s[|s| - 1]];
    }
  }

  /** With no search text and the period "all", the filter keeps the whole ledger. */
  lemma {:induction false} NoFilterKeepsAll(s: seq<Expense>, now: DateTime)
    requires ValidDateTime(now)
    ensures Filtered(s, "", AllTime, now) == s
  {
    if s != [] {
      NoFilterKeepsAll(s[..|s| - 1], now);
    }
  }

  predicate IsMidnight(t: DateTime)
  {
    t.hour == 0 && t.minute == 0 && t.second == 0 && t.micro == 0
  }

  /**
   * A date is not before `now` moved back `n` days exactly when it is a later
   * day than the day reached, or that very day while `now` is midnight.
   */
  lemma SinceStart(d: Date, now: DateTime, n: nat)
    requires ValidDate(d) && ValidDateTime(now) && SubtractDays(now.date, n).Some?
    ensures NotBefore(d, SubtractDaysAt(now, n)) <==>
      DayNumber(d) > DayNumber(SubtractDays(now.date, n).value)
      || (d == SubtractDays(now.date, n).value && IsMidnight(now))
  {
    DateBeforeIffNumber(d, SubtractDays(now.date, n).value);
  }

  /**
   * "This week" keeps a record dated on the Monday of `now`'s week only when
   * `now` is exactly midnight.
   */
  lemma MondayNeedsMidnight(now: DateTime, e: Expense)
    requires ValidDateTime(now)
    requires SubtractDays(now.date, Weekday(now.date)).Some?
    requires ParseDate(e.date.GetOr("")) == SubtractDays(now.date, Weekday(now.date))
    ensures PeriodPasses(ThisWeek, now, e) <==> IsMidnight(now)
  {
    var monday := SubtractDays(now.date, Weekday(now.date)).value;
    SinceStart(monday, now, Weekday(now.date));
  }

  /**
   * "Last 30 days" keeps a record dated exactly 30 days before today only when
   * `now` is exactly midnight.
   */
  lemma ThirtyDaysNeedsMidnight(now: DateTime, e: Expense)
    requires ValidDateTime(now)
    requires SubtractDays(now.date, 30).Some?
    requires ParseDate(e.date.GetOr("")) == SubtractDays(now.date, 30)
    ensures PeriodPasses(Last30Days, now, e) <==> IsMidnight(now)
  {
    SinceStart(SubtractDays(now.date, 30).value, now, 30);
  }

  /** Neither "this week" nor "last 30 days" has an upper bound: any date after today passes. */
  lemma NoUpperBound(now: DateTime, e: Expense)
    requires ValidDateTime(now)
    requires ParseDate(e.date.GetOr("")).Some?
    requires DayNumber(ParseDate(e.date.GetOr("")).value) > DayNumber(now.date)
    ensures PeriodPasses(ThisWeek, now, e)
    ensures now.date.year > 1 ==> PeriodPasses(Last30Days, now, e)
  {
    var d := ParseDate(e.date.GetOr("")).value;
    WeekStart(now.date);
    SinceStart(d, now, Weekday(now.date));
    if now.date.year > 1 {
      FirstYearDays(now.date);
      SubtractDaysDefined(now.date, 30);
      SubtractDaysNumber(now.date, 30);
      SinceStart(d, now, 30);
    }
  }

  lemma FirstYearDays(d: Date)
    requires ValidDate(d) && d.year > 1
    ensures DayNumber(d) > 30
  {
    assert DaysBeforeYear(d.year) >= YearDays(d.year - 1);
  }
}

=== FILE: ledger.dfy ===
/**
 * The expense ledger of the desktop tracker: the checks of the add and edit
 * forms, the record each builds, removal by position, and the ledger rebuilt
 * from the rows on screen when removal fails. A record has no identity but
 * its position in the ledger.
 */
module Ledger {
  import opened Wrappers
  import opened Text
  import opened Decimal
  import opened Calendar
  import opened Records

  /** The errors of the add form, in the order it checks them. */
  datatype AddError =
    | MissingField  // from, to or amount left blank
    | NotANumber    // `float()` refuses the amount
    | NotPositive   // the amount is zero or less
    | BadDate       // the date is not `%Y-%m-%d`

  /**
   * The add form as typed. `kind` and `payment` come from read-only lists;
   * `receipt` is the file last attached, if any.
   */
  datatype AddForm = AddForm(
    date: string, origin: string, destination: string, kind: string, payment: string,
    amount: string, notes: string, receipt: Option<string>)

  /**
   * `add_expense` up to the append: from, to and amount must not be blank,
   * the amount must read as a number above zero, and the stripped date must
   * parse. The record keeps the stripped texts, the number, the attached
   * file and the time it was added.
   */
  function CheckAdd(f: AddForm, stamp: string): (r: Result<Expense, AddError>)
    ensures r == Err(MissingField) <==> Strip(f.origin) == "" || Strip(f.destination) == "" || Strip(f.amount) == ""
    ensures r.Ok? <==>
      Strip(f.origin) != "" && Strip(f.destination) != "" && Strip(f.amount) != ""
      && ParseFloat(f.amount).Some? && ParseFloat(f.amount).value > 0.0
      && ParseDate(Strip(f.date)).Some?
    ensures r == Err(NotANumber) <==>
      Strip(f.origin) != "" && Strip(f.destination) != "" && Strip(f.amount) != ""
      && ParseFloat(f.amount).None?
    ensures r == Err(NotPositive) <==>
      Strip(f.origin) != "" && Strip(f.destination) != "" && Strip(f.amount) != ""
      && ParseFloat(f.amount).Some? && ParseFloat(f.amount).value <= 0.0
    ensures r == Err(BadDate) <==>
      Strip(f.origin) != "" && Strip(f.destination) != "" && Strip(f.amount) != ""
      && ParseFloat(f.amount).Some? && ParseFloat(f.amount).value > 0.0
      && ParseDate(Strip(f.date)).None?
    ensures r.Ok? ==>
      r.value.amount == ParseFloat(f.amount) && Amount(r.value) > 0.0
      && r.value.kind == Some(f.kind) && r.value.payment == Some(f.payment)
      && r.value.date == Some(Strip(f.date)) && r.value.origin == Some(Strip(f.origin))
      && r.value.destination == Some(Strip(f.destination)) && r.value.notes == Some(Strip(f.notes))
      && r.value.receipt == f.receipt && r.value.addedAt == Some(stamp) && r.value.updatedAt == None
      && r.value.category == None && r.value.description == None && r.value.timestamp == None
  {
    if Strip(f.origin) == "" || Strip(f.destination) == "" || Strip(f.amount) == "" then Err(MissingField)
    else match ParseFloat(f.amount)
      case None => Err(NotANumber)
      case Some(v) =>
        if v <= 0.0 then Err(NotPositive)
        else if ParseDate(Strip(f.date)).None? then Err(BadDate)
        else Ok(Expense(Some(Strip(f.date)), Some(Strip(f.origin)), Some(Strip(f.destination)),
                        Some(f.kind), Some(f.payment), Some(v), Some(Strip(f.notes)), f.receipt,
                        Some(stamp), None, None, None, None))
  }

  /** The row `add_expense` puts at the end of the table is the row the table shows for the new record. */
  lemma AddedRowShown(f: AddForm, stamp: string)
    requires CheckAdd(f, stamp).Ok?
    ensures DisplayRow(CheckAdd(f, stamp).value) ==
      Row(Strip(f.date), Strip(f.origin), Strip(f.destination), f.kind, f.payment,
          Fixed2(ParseFloat(f.amount).value), Strip(f.notes), if Truthy(f.receipt) then Attached else NoReceipt)
  {
  }

  /** The errors of the edit window, in the order it checks them. */
  datatype EditError =
    | WrongDate    // the date is not `%Y-%m-%d`
    | WrongAmount  // not a number, or not above zero

  /**
   * The edit window as submitted: every text as typed, `kind` and `payment`
   * from read-only lists, and `receipt` the path shown, empty for none.
   */
  datatype EditForm = EditForm(
    date: string, origin: string, destination: string, kind: string, payment: string,
    amount: string, notes: string, receipt: string)

  /**
   * `save_edit` up to the assignment: the date is checked before the
   * amount, from and to may be blank. The new record is built afresh, so any
   * key the window does not show (category, description, timestamp) is
   * dropped; it keeps the old time of adding, or takes now when there was
   * none, and records now as the time of the edit.
   */
  function CheckEdit(e: Expense, f: EditForm, stamp: string): (r: Result<Expense, EditError>)
    ensures r == Err(WrongDate) <==> ParseDate(Strip(f.date)).None?
    ensures r.Ok? <==>
      ParseDate(Strip(f.date)).Some? && ParseFloat(Strip(f.amount)).Some? && ParseFloat(Strip(f.amount)).value > 0.0
    ensures r.Ok? ==>
      r.value.amount == ParseFloat(Strip(f.amount)) && Amount(r.value) > 0.0
      && r.value.date == Some(Strip(f.date)) && r.value.origin == Some(Strip(f.origin))
      && r.value.destination == Some(Strip(f.destination)) && r.value.notes == Some(Strip(f.notes))
      && r.value.kind == Some(f.kind) && r.value.payment == Some(f.payment)
      && r.value.receipt == (if f.receipt == "" then None else Some(f.receipt))
      && r.value.addedAt == (if e.addedAt.Some? then e.addedAt else Some(stamp))
      && r.value.updatedAt == Some(stamp)
      && r.value.category == r.value.description == r.value.timestamp == None
  {
    if ParseDate(Strip(f.date)).None? then Err(WrongDate)
    else match ParseFloat(Strip(f.amount))
      case None => Err(WrongAmount)
      case Some(v) =>
        if v <= 0.0 then Err(WrongAmount)
        else Ok(Expense(Some(Strip(f.date)), Some(Strip(f.origin)), Some(Strip(f.destination)),
                        Some(f.kind), Some(f.payment), Some(v), Some(Strip(f.notes)),
                        if f.receipt == "" then None else Some(f.receipt),
                        Some(e.addedAt.GetOr(stamp)), Some(stamp), None, None, None))
  }

  /** Editing twice keeps the time the record was first added. */
  lemma EditKeepsAddedAt(e: Expense, f: EditForm, g: EditForm, stamp: string, later: string)
    requires CheckEdit(e, f, stamp).Ok?
    requires CheckEdit(CheckEdit(e, f, stamp).value, g, later).Ok?
    ensures CheckEdit(CheckEdit(e, f, stamp).value, g, later).value.addedAt
         == CheckEdit(e, f, stamp).value.addedAt
    ensures CheckEdit(CheckEdit(e, f, stamp).value, g, later).value.addedAt.Some?
  {
  }

  /** Replacing one record changes the total by the difference of the two amounts. */
  lemma TotalReplace(s: seq<Expense>, i: int, e: Expense)
    requires 0 <= i < |s|
    ensures Total(s[i := e]) == Total(s) - Amount(s[i]) + Amount(e)
  {
    TotalSplit(s, i);
    TotalSplit(s[i := e], i);
    assert s[i := e][..i] == s[..i];
    assert s[i := e][i + 1..] == s[i + 1..];
  }

  /** `list.pop(i)` for an index in range: the sequence without its `i`-th element. */
  function RemoveAt<T>(s: seq<T>, i: int): (r: seq<T>)
    requires 0 <= i < |s|
    ensures |r| == |s| - 1
    ensures forall k :: 0 <= k < i ==> r[k] == s[k]
    ensures forall k :: i <= k < |r| ==> r[k] == s[k + 1]
  {
    s[..i] + s[i + 1..]
  }

  /** Removing a record takes exactly its amount off the total. */
  lemma TotalRemove(s: seq<Expense>, i: int)
    requires 0 <= i < |s|
    ensures Total(RemoveAt(s, i)) == Total(s) - Amount(s[i])
  {
    TotalSplit(s, i);
    TotalConcat(s[..i], s[i + 1..]);
  }

  /** The total is the total before position `i`, the amount at `i`, and the total after it. */
  lemma TotalSplit(s: seq<Expense>, i: int)
    requires 0 <= i < |s|
    ensures Total(s) == Total(s[..i]) + Amount(s[i]) + Total(s[i + 1..])
  {
    TotalConcat(s[..i + 1], s[i + 1..]);
    assert s[..i + 1] + s[i + 1..] == s;
    assert s[..i + 1][..i] == s[..i];
  }

  /** Removal keeps every other record, in order: as a multiset, exactly one copy of the removed one goes. */
  lemma RemoveKeepsOthers<T>(s: seq<T>, i: int)
    requires 0 <= i < |s|
    ensures multiset(RemoveAt(s, i)) + multiset{s[i]} == multiset(s)
  {
    assert s == s[..i] + [s[i]] + s[i + 1..];
  }

  /**
   * One record of `rebuild_expenses_from_tree`: the texts of a row, the
   * amount read back from its text with commas removed (`0.0` when it does
   * not read), and no receipt.
   */
  function RebuiltExpense(row: Row): (e: Expense)
  {
    Expense(Some(row.date), Some(row.origin), Some(row.destination), Some(row.kind), Some(row.payment),
            Some(ParseFloat(Without(row.amount, ',')).GetOr(0.0)), Some(row.notes), None,
            None, None, None, None, None)
  }

  /** The ledger rebuilt from the rows on screen: one record per row, in screen order. */
  function RebuildAll(rows: seq<Row>): (s: seq<Expense>)
    ensures |s| == |rows|
  {
    if rows == [] then [] else RebuildAll(rows[..|rows| - 1]) + [RebuiltExpense(rows[|rows| - 1])]
  }

  lemma {:induction false} RebuildAllAt(rows: seq<Row>, i: int)
    requires 0 <= i < |rows|
    ensures RebuildAll(rows)[i] == RebuiltExpense(rows[i])
  {
    var init := rows[..|rows| - 1];
    if i < |rows| - 1 {
      RebuildAllAt(init, i);
      assert init[i] == rows[i];
    }
  }

  /** `rebuild_expenses_from_tree`: the loop over the rows on screen. */
  method Rebuild(rows: seq<Row>) returns (s: seq<Expense>)
    ensures s == RebuildAll(rows)
  {
    s := [];
    var i := 0;
    while i < |rows|
      invariant 0 <= i <= |rows|
      invariant s == RebuildAll(rows[..i])
    {
      assert rows[..i + 1][..i] == rows[..i];
      s := s + [RebuiltExpense(rows[i])];
      i := i + 1;
    }
    assert rows[..i] == rows;
  }

  /** The unsigned amount text of `m` cents reads back as `m / 100`, commas removed or not. */
  lemma ReadsBack(shown: string, m: nat)
    requires shown == SignedCents(false, m)
    ensures ParseFloat(Without(shown, ',')) == Some(m as real / 100.0)
  {
    NoComma(m);
    CentsReadBack(m);
  }

  /** Amounts on screen carry no thousands separator. */
  lemma NoComma(m: nat)
    ensures ',' !in SignedCents(false, m)
  {
    var t := SignedCents(false, m);
    var w := NatToString(m / 100);
    var c := ZeroPad(m % 100, 2);
    assert t == w + "." + c;
    forall k | 0 <= k < |t|
      ensures t[k] != ','
    {
      if k < |w| {
        assert t[k] == w[k];
      } else if k > |w| {
        assert t[k] == c[k - |w| - 1];
      }
    }
  }

  /**
   * What rebuilding keeps of a shown record with a non-negative amount of
   * `m` whole cents after rounding: its texts (a missing key as empty text),
   * the payment and type, and the amount `m / 100`; the receipt and the time
   * of adding are lost.
   */
  lemma RebuildOfShown(e: Expense, m: nat)
    requires Amount(e) >= 0.0 && m == Cents(Amount(e))
    ensures var b := RebuiltExpense(DisplayRow(e));
      b.date == Some(e.date.GetOr("")) && b.origin == Some(e.origin.GetOr(""))
      && b.destination == Some(e.destination.GetOr("")) && b.kind == Some(e.kind.GetOr(""))
      && b.payment == Some(e.payment.GetOr("")) && b.notes == Some(e.notes.GetOr(""))
      && b.amount == Some(m as real / 100.0) && b.receipt == None && b.addedAt == None
  {
    PositiveSign(Amount(e));
    ReadsBack(DisplayRow(e).amount, m);
  }
}

=== FILE: records.dfy ===
/**
 * The records the tracker keeps in its JSON store. Both front ends share one
 * store shape: a map from user name to an account record, each holding a
 * list of expense records. Records are Python dictionaries, so most keys may
 * be missing; such a key is an `Option` here and `GetOr` plays `dict.get`.
 */
module Records {
  import opened Wrappers
  import opened Decimal

  /**
   * One expense. The desktop tracker writes `date`, `from`, `to`, `type`,
   * `payment_method`, `amount`, `notes`, `receipt`, `added_at` and, after an
   * edit, `updated_at`; the web front end writes `category`, `amount`,
   * `date`, `description` and `timestamp`. A `receipt` of `None` is JSON `null`.
   */
  datatype Expense = Expense(
    date: Option<string>,
    origin: Option<string>,
    destination: Option<string>,
    kind: Option<string>,
    payment: Option<string>,
    amount: Option<real>,
    notes: Option<string>,
    receipt: Option<string>,
    addedAt: Option<string>,
    updatedAt: Option<string>,
    category: Option<string>,
    description: Option<string>,
    timestamp: Option<string>)

  /**
   * One account. Every account either front end creates has a `password`:
   * the hex digest of the password on the desktop, the password itself on
   * the web. `username` is present on records the desktop wrote back from
   * its logged-in copy.
   */
  datatype Account = Account(
    password: string,
    name: Option<string>,
    employeeId: Option<string>,
    companyName: Option<string>,
    department: Option<string>,
    email: Option<string>,
    paymentMethod: Option<string>,
    expenses: Option<seq<Expense>>,
    createdAt: Option<string>,
    username: Option<string>)

  type Users = map<string, Account>

  /** The default payment method, "cash". */
  const Cash := "نقدي"
  /** The company name back-filled into old records, "not specified". */
  const Unspecified := "غير محدد"
  /** The transport type statistics use for a record without one, "other". */
  const OtherKind := "أخرى"
  /** The receipt column when a receipt is attached. */
  const Attached := "مرفق"
  /** The receipt column when there is none. */
  const NoReceipt := "لا يوجد"
  /** The receipt cell of the report when the image cannot be embedded. */
  const ImageError := "خطأ في الصورة"

  /** Python truthiness of an optional string: present and non-empty. */
  predicate Truthy(o: Option<string>)
  {
    o.Some? && o.value != ""
  }

  /** `exp.get('amount', 0)`. */
  function Amount(e: Expense): real
  {
    e.amount.GetOr(0.0)
  }

  /** `sum(exp.get('amount', 0) for exp in expenses)`. */
  function Total(s: seq<Expense>): real
  {
    if s == [] then 0.0 else Total(s[..|s| - 1]) + Amount(s[|s| - 1])
  }

  /** The total of a concatenation is the sum of the totals. */
  lemma {:induction false} TotalConcat(a: seq<Expense>, b: seq<Expense>)
    ensures Total(a + b) == Total(a) + Total(b)
    decreases |b|
  {
    if b == [] {
      assert a + b == a;
    } else {
      assert (a + b)[..|a + b| - 1] == a + b[..|b| - 1];
      TotalConcat(a, b[..|b| - 1]);
    }
  }

  /** Appending a record adds its amount to the total. */
  lemma TotalAppend(s: seq<Expense>, e: Expense)
    ensures Total(s + [e]) == Total(s) + Amount(e)
  {
    assert (s + [e])[..|s|] == s;
  }

  /** With no negative amounts, no record exceeds the total. */
  lemma {:induction false} TotalBounds(s: seq<Expense>, i: int)
    requires forall k :: 0 <= k < |s| ==> Amount(s[k]) >= 0.0
    requires 0 <= i < |s|
    ensures 0.0 <= Amount(s[i]) <= Total(s)
  {
    TotalNonNegative(s[..i]);
    TotalNonNegative(s[i + 1..]);
    assert s == s[..i] + [s[i]] + s[i + 1..];
    TotalConcat(s[..i] + [s[i]], s[i + 1..]);
    TotalAppend(s[..i], s[i]);
  }

  lemma {:induction false} TotalNonNegative(s: seq<Expense>)
    requires forall k :: 0 <= k < |s| ==> Amount(s[k]) >= 0.0
    ensures Total(s) >= 0.0
  {
    if s != [] {
      TotalNonNegative(s[..|s| - 1]);
    }
  }

  /** One line of the expense table on screen: eight display strings. */
  datatype Row = Row(
    date: string, origin: string, destination: string, kind: string,
    payment: string, amount: string, notes: string, receipt: string)

  /**
   * How `refresh_treeview` shows a record: missing keys as empty text, the
   * amount as `:.2f`, and the receipt column as attached or not.
   */
  function DisplayRow(e: Expense): (r: Row)
    ensures r.date == e.date.GetOr("") && r.origin == e.origin.GetOr("") && r.destination == e.destination.GetOr("")
    ensures r.kind == e.kind.GetOr("") && r.payment == e.payment.GetOr("") && r.notes == e.notes.GetOr("")
    ensures r.receipt == (if Truthy(e.receipt) then Attached else NoReceipt)
    ensures r.amount == Fixed2(Amount(e))
  {
    Row(e.date.GetOr(""), e.origin.GetOr(""), e.destination.GetOr(""), e.kind.GetOr(""),
        e.payment.GetOr(""), Fixed2(Amount(e)), e.notes.GetOr(""),
        if Truthy(e.receipt) then Attached else NoReceipt)
  }

  function DisplayRows(s: seq<Expense>): (r: seq<Row>)
    ensures |r| == |s|
    ensures forall i :: 0 <= i < |s| ==> r[i] == DisplayRow(s[i])
  {
    seq(|s|, i requires 0 <= i < |s| => DisplayRow(s[i]))
  }
}

=== FILE: report.dfy ===
/**
 * The Excel report: which value lands in which row, how receipt images are
 * scaled into the receipt column, and where the total and the signatures go.
 * Fonts, fills other than the alternate-row shading, borders and column
 * widths are presentation only and are not modelled.
 */
module Report {
  import opened Wrappers
  import opened Records

  /** What opening a receipt path yields: no such file, a file that is not an image, or an image of `w` by `h` pixels. */
  datatype ImageProbe = Absent | Broken | Picture(w: nat, h: nat)

  /** The largest side an embedded receipt image may keep. */
  const MaxSide := 150
  /** The first of the six rows of employee information. */
  const InfoRow := 3
  /** The row of column headings. */
  const HeaderRow := 10
  /** The row of the first record. */
  const FirstDataRow := 11

  function Min(a: real, b: real): real
  {
    if a <= b then a else b
  }

  function Max(a: int, b: int): int
  {
    if a >= b then a else b
  }

  /**
   * Shrinking an image whose larger side exceeds 150 pixels by one ratio for
   * both sides, each truncated to whole pixels. `None` stands for the
   * division by zero an image with an empty side raises.
   */
  function Scale(w: nat, h: nat): (r: Option<(nat, nat)>)
    ensures r.None? <==> (w > MaxSide || h > MaxSide) && (w == 0 || h == 0)
    ensures r.Some? ==> r.value.0 <= MaxSide && r.value.1 <= MaxSide
    ensures r.Some? ==> r.value.0 <= w && r.value.1 <= h
    ensures r.Some? && (w > MaxSide || h > MaxSide) ==> Max(r.value.0, r.value.1) == MaxSide
    ensures r.Some? && w <= MaxSide && h <= MaxSide ==> r.value == (w, h)
  {
    if w > MaxSide || h > MaxSide then
      if w == 0 || h == 0 then None
      else
        var ratio := Min(MaxSide as real / w as real, MaxSide as real / h as real);
        ScaleBounds(w, h, ratio);
        Some(((w as real * ratio).Floor, (h as real * ratio).Floor))
    else Some((w, h))
  }

  lemma ScaleBounds(w: nat, h: nat, ratio: real)
    requires w > 0 && h > 0 && (w > MaxSide || h > MaxSide)
    requires ratio == Min(MaxSide as real / w as real, MaxSide as real / h as real)
    ensures 0 <= (w as real * ratio).Floor <= MaxSide && (w as real * ratio).Floor <= w
    ensures 0 <= (h as real * ratio).Floor <= MaxSide && (h as real * ratio).Floor <= h
    ensures Max((w as real * ratio).Floor, (h as real * ratio).Floor) == MaxSide
  {
    var m, a, b := MaxSide as real, w as real, h as real;
    if w > MaxSide { RatioBelowOne(a, m); } else { RatioBelowOne(b, m); }
    assert 0.0 < ratio < 1.0;
    SideShrinks(a, m, ratio);
    SideShrinks(b, m, ratio);
    if ratio == m / a {
      Cancel(a, m);
    } else {
      Cancel(b, m);
    }
  }

  /** `x * (m / x)` is `m`. */
  lemma Cancel(x: real, m: real)
    requires x > 0.0
    ensures x * (m / x) == m
  {
  }

  lemma MulMonotone(x: real, r: real, s: real)
    requires x >= 0.0 && r <= s
    ensures x * r <= x * s
  {
  }

  /** Shrinking a side larger than `m` to `m` takes a ratio below one. */
  lemma RatioBelowOne(x: real, m: real)
    requires x > m > 0.0
    ensures 0.0 < m / x < 1.0
  {
    Cancel(x, m);
    if m / x >= 1.0 {
      MulMonotone(x, 1.0, m / x);
      assert false;
    }
  }

  /** A side scaled by a ratio below one and at most `m / x` shrinks and stays within `m`. */
  lemma SideShrinks(x: real, m: real, r: real)
    requires x > 0.0 && 0.0 < r < 1.0 && r <= m / x
    ensures 0.0 <= x * r <= m && x * r <= x
  {
    Cancel(x, m);
    MulMonotone(x, r, m / x);
    MulMonotone(x, r, 1.0);
  }

  /** The receipt column of one report row and, when an image is embedded, the row's height. */
  datatype ReceiptCell = ReceiptCell(text: string, height: Option<int>)

  /**
   * A receipt path that is set and names an existing file is embedded,
   * scaled, with the row made tall enough for it; any failure on the way
   * marks the cell as an image error. Otherwise the cell says there is none.
   */
  function Receipt(path: Option<string>, probe: string -> ImageProbe): (c: ReceiptCell)
    ensures c.text == Attached <==> c.height.Some?
    ensures c.text == NoReceipt <==> !Truthy(path) || probe(path.value) == Absent
    // an image is placed exactly when the file opens as a picture whose scaled size exists
    ensures c.text == Attached <==>
      Truthy(path) && probe(path.value).Picture?
      && Scale(probe(path.value).w, probe(path.value).h).Some?
    ensures c.text == ImageError <==>
      Truthy(path) && probe(path.value) != Absent
      && !(probe(path.value).Picture? && Scale(probe(path.value).w, probe(path.value).h).Some?)
    // the row grows to three quarters of the scaled height plus 10 points, never below 115
    ensures c.text == Attached ==>
      c.height == Some(Max(115, Scale(probe(path.value).w, probe(path.value).h).value.1 * 3 / 4 + 10))
    ensures c.height.Some? ==> 115 <= c.height.value <= 122
  {
    if Truthy(path) && probe(path.value) != Absent then
      match probe(path.value)
      case Picture(w, h) =>
        (match Scale(w, h)
         case Some(size) => ReceiptCell(Attached, Some(Max(115, size.1 * 3 / 4 + 10)))
         case None => ReceiptCell(ImageError, None))
      case _ => ReceiptCell(ImageError, None)
    else ReceiptCell(NoReceipt, None)
  }

  /** One data row of the report. */
  datatype Line = Line(
    row: nat, date: string, origin: string, destination: string, kind: string,
    payment: string, amount: real, notes: string, shaded: bool, receipt: ReceiptCell)

  /** The report row for a record: missing text keys as empty text, a missing amount as 0. */
  function LineFor(e: Expense, row: nat, shaded: bool, probe: string -> ImageProbe): (l: Line)
    ensures l.row == row && l.shaded == shaded && l.amount == Amount(e)
    ensures l.date == e.date.GetOr("") && l.origin == e.origin.GetOr("") && l.destination == e.destination.GetOr("")
    ensures l.kind == e.kind.GetOr("") && l.payment == e.payment.GetOr("") && l.notes == e.notes.GetOr("")
    ensures l.receipt == Receipt(e.receipt, probe)
  {
    Line(row, e.date.GetOr(""), e.origin.GetOr(""), e.destination.GetOr(""), e.kind.GetOr(""),
         e.payment.GetOr(""), Amount(e), e.notes.GetOr(""), shaded, Receipt(e.receipt, probe))
  }

  /** The employee information block, rows 3 to 8. */
  datatype Info = Info(
    name: string, employeeId: string, companyName: string, department: string,
    paymentMethod: string, reportDate: string)

  datatype Sheet = Sheet(info: Info, lines: seq<Line>, totalRow: nat, total: real, signatureRow: nat)

  /** A required key of the signed-in account that the report reads without a default. */
  datatype ReportError = NoName | NoEmployeeId

  /** The sum of the amount column. */
  function ColumnSum(lines: seq<Line>): real
  {
    if lines == [] then 0.0 else ColumnSum(lines[..|lines| - 1]) + lines[|lines| - 1].amount
  }

  /** Lines of the records in order, numbered from `FirstDataRow`, every other one shaded. */
  predicate LinesOf(lines: seq<Line>, s: seq<Expense>, probe: string -> ImageProbe)
  {
    |lines| == |s| &&
    forall i :: 0 <= i < |s| ==> lines[i] == LineFor(s[i], FirstDataRow + i, i % 2 == 0, probe)
  }

  /**
   * `generate_excel`: the information block, then one row per record of the
   * whole ledger from row 11 on, then the total one row below the last
   * record and the signatures three rows below the total.
   */
  method Generate(user: Account, s: seq<Expense>, probe: string -> ImageProbe, reportDate: string)
    returns (r: Result<Sheet, ReportError>)
    ensures r == Err(NoName) <==> user.name.None?
    ensures r == Err(NoEmployeeId) <==> user.name.Some? && user.employeeId.None?
    ensures r.Ok? <==> user.name.Some? && user.employeeId.Some?
    ensures r.Ok? ==> r.value.info == Info(user.name.value, user.employeeId.value,
      user.companyName.GetOr(Unspecified), user.department.GetOr(""), user.paymentMethod.GetOr(Cash), reportDate)
    ensures r.Ok? ==> LinesOf(r.value.lines, s, probe)
    ensures r.Ok? ==> r.value.total == Total(s) && r.value.totalRow == FirstDataRow + |s| + 1
    ensures r.Ok? ==> r.value.signatureRow == r.value.totalRow + 3
  {
    if user.name.None? {
      return Err(NoName);
    }
    if user.employeeId.None? {
      return Err(NoEmployeeId);
    }
    var info := Info(user.name.value, user.employeeId.value, user.companyName.GetOr(Unspecified),
                     user.department.GetOr(""), user.paymentMethod.GetOr(Cash), reportDate);
    var lines: seq<Line> := [];
    var row := FirstDataRow;
    while row - FirstDataRow < |s|
      invariant FirstDataRow <= row <= FirstDataRow + |s|
      invariant LinesOf(lines, s[..row - FirstDataRow], probe)
    {
      var k := row - FirstDataRow;
      lines := lines + [LineFor(s[k], row, k % 2 == 0, probe)];
      row := row + 1;
    }
    assert s[..row - FirstDataRow] == s;
    var totalRow := row + 1;
    r := Ok(Sheet(info, lines, totalRow, Total(s), totalRow + 3));
  }

  /** The total cell equals the sum of the amount column above it. */
  lemma {:induction false} TotalMatchesColumn(lines: seq<Line>, s: seq<Expense>, probe: string -> ImageProbe)
    requires LinesOf(lines, s, probe)
    ensures ColumnSum(lines) == Total(s)
  {
    if s != [] {
      var n := |s| - 1;
      assert LinesOf(lines[..n], s[..n], probe) by {
        forall i | 0 <= i < n
          ensures lines[..n][i] == LineFor(s[..n][i], FirstDataRow + i, i % 2 == 0, probe)
        {
          assert lines[i] == LineFor(s[i], FirstDataRow + i, i % 2 == 0, probe);
        }
      }
      TotalMatchesColumn(lines[..n], s[..n], probe);
      assert lines[n] == LineFor(s[n], FirstDataRow + n, n % 2 == 0, probe);
    }
  }

  /** The rows of the report never overlap: records sit between the headings and the total, in order. */
  lemma RowsInOrder(lines: seq<Line>, s: seq<Expense>, probe: string -> ImageProbe, i: int, j: int)
    requires LinesOf(lines, s, probe)
    requires 0 <= i < j < |lines|
    ensures InfoRow + 5 < HeaderRow < lines[i].row < lines[j].row < FirstDataRow + |s| + 1
  {
    assert lines[i] == LineFor(s[i], FirstDataRow + i, i % 2 == 0, probe);
    assert lines[j] == LineFor(s[j], FirstDataRow + j, j % 2 == 0, probe);
  }

  /** What the report command ends in. */
  datatype Outcome = NoExpenses | Cancelled | Failed(error: ReportError) | Written(filename: string, sheet: Sheet)

  /**
   * `create_excel_report`: refused for an empty ledger, abandoned when no
   * file name is chosen, otherwise the report is generated and written, an
   * error in generating it being reported instead.
   */
  method CreateReport(user: Account, s: seq<Expense>, filename: string, probe: string -> ImageProbe, reportDate: string)
    returns (o: Outcome)
    ensures o == NoExpenses <==> s == []
    ensures o == Cancelled <==> s != [] && filename == ""
    ensures o.Failed? <==> s != [] && filename != "" && (user.name.None? || user.employeeId.None?)
    ensures o.Written? ==> o.filename == filename && LinesOf(o.sheet.lines, s, probe) && o.sheet.total == Total(s)
  {
    if s == [] {
      return NoExpenses;
    }
    if filename == "" {
      return Cancelled;
    }
    var r := Generate(user, s, probe, reportDate);
    match r
    case Ok(sheet) => o := Written(filename, sheet);
    case Err(e) => o := Failed(e);
  }
}

=== FILE: statistics.dfy ===
/**
 * The statistics window of the desktop tracker and the category summary of
 * the web front end: totals, average, extremes, and sums per key gathered
 * in a dictionary (keys in the order first seen), listed by falling sum.
 */
module Statistics {
  import opened Wrappers
  import opened Records

  /** One dictionary entry: a key and the sum of the amounts filed under it. */
  datatype Group = Group(key: string, sum: real)

  /** One record as the grouping loop sees it: its key and its amount. */
  type Item = (string, real)

  /** The sum of the amounts of `items`. */
  function Sum(items: seq<Item>): real
  {
    if items == [] then 0.0 else Sum(items[..|items| - 1]) + items[|items| - 1].1
  }

  /** The sum of the amounts of `items` filed under `k`. */
  function SumWhere(items: seq<Item>, k: string): real
  {
    if items == [] then 0.0
    else SumWhere(items[..|items| - 1], k) + (if items[|items| - 1].0 == k then items[|items| - 1].1 else 0.0)
  }

  /** The sum of a list of groups. */
  function SumGroups(g: seq<Group>): real
  {
    if g == [] then 0.0 else g[0].sum + SumGroups(g[1..])
  }

  /** `d.get(k, 0)`. */
  function Lookup(g: seq<Group>, k: string): real
  {
    if g == [] then 0.0 else if g[0].key == k then g[0].sum else Lookup(g[1..], k)
  }

  function Keys(g: seq<Group>): set<string>
  {
    if g == [] then {} else {g[0].key} + Keys(g[1..])
  }

  /** No key has two entries, as in a dictionary. */
  predicate DistinctKeys(g: seq<Group>)
  {
    g == [] || (g[0].key !in Keys(g[1..]) && DistinctKeys(g[1..]))
  }

  /** The keys of `items`. */
  function ItemKeys(items: seq<Item>): set<string>
  {
    if items == [] then {} else ItemKeys(items[..|items| - 1]) + {items[|items| - 1].0}
  }

  /** `d[k] = d.get(k, 0) + a`: an existing key keeps its place, a new key goes last. */
  function AddTo(g: seq<Group>, k: string, a: real): (r: seq<Group>)
    ensures |r| == |g| || |r| == |g| + 1
  {
    if g == [] then [Group(k, a)]
    else if g[0].key == k then [g[0].(sum := g[0].sum + a)] + g[1..]
    else [g[0]] + AddTo(g[1..], k, a)
  }

  /** Adding to one key changes that key's entry by `a` and no other entry. */
  lemma {:induction false} AddToLookup(g: seq<Group>, k: string, a: real, k': string)
    ensures Lookup(AddTo(g, k, a), k') == Lookup(g, k') + (if k == k' then a else 0.0)
  {
    if g != [] && g[0].key != k {
      AddToLookup(g[1..], k, a, k');
    }
  }

  /** Adding to a key adds `a` to the sum of all entries. */
  lemma {:induction false} AddToSum(g: seq<Group>, k: string, a: real)
    ensures SumGroups(AddTo(g, k, a)) == SumGroups(g) + a
  {
    if g != [] && g[0].key != k {
      AddToSum(g[1..], k, a);
    }
  }

  /** Adding to a key keeps the keys distinct and adds `k` to them. */
  lemma {:induction false} AddToKeys(g: seq<Group>, k: string, a: real)
    requires DistinctKeys(g)
    ensures DistinctKeys(AddTo(g, k, a))
    ensures Keys(AddTo(g, k, a)) == Keys(g) + {k}
    ensures k in Keys(g) ==> |AddTo(g, k, a)| == |g|
  {
    if g != [] {
      var r := AddTo(g, k, a);
      if g[0].key == k {
        assert r[1..] == g[1..];
      } else {
        AddToKeys(g[1..], k, a);
        assert r[1..] == AddTo(g[1..], k, a);
      }
    }
  }

  /** The dictionary the grouping loop ends with: one entry per key, in the order keys first occur. */
  function Grouped(items: seq<Item>): seq<Group>
  {
    if items == [] then []
    else AddTo(Grouped(items[..|items| - 1]), items[|items| - 1].0, items[|items| - 1].1)
  }

  /** Each key's entry is the sum of the amounts filed under it. */
  lemma {:induction false} GroupedLookup(items: seq<Item>, k: string)
    ensures Lookup(Grouped(items), k) == SumWhere(items, k)
  {
    if items != [] {
      var last := items[|items| - 1];
      GroupedLookup(items[..|items| - 1], k);
      AddToLookup(Grouped(items[..|items| - 1]), last.0, last.1, k);
    }
  }

  /** The entries add up to the sum of all amounts, and the keys are distinct and exactly the keys seen. */
  lemma {:induction false} GroupedTotal(items: seq<Item>)
    ensures SumGroups(Grouped(items)) == Sum(items)
    ensures DistinctKeys(Grouped(items))
    ensures Keys(Grouped(items)) == ItemKeys(items)
  {
    if items != [] {
      var init, last := items[..|items| - 1], items[|items| - 1];
      GroupedTotal(init);
      AddToSum(Grouped(init), last.0, last.1);
      AddToKeys(Grouped(init), last.0, last.1);
    }
  }

  /** The grouping loop of `show_statistics` (and of the web summary): one pass, one dictionary update per record. */
  method GroupLoop(items: seq<Item>) returns (g: seq<Group>)
    ensures g == Grouped(items)
  {
    g := [];
    var i := 0;
    while i < |items|
      invariant 0 <= i <= |items|
      invariant g == Grouped(items[..i])
    {
      assert items[..i + 1][..i] == items[..i];
      g := AddTo(g, items[i].0, items[i].1);
      i := i + 1;
    }
    assert items[..i] == items;
  }

  // ---- listing by falling sum ----

  predicate NonIncreasing(g: seq<Group>)
  {
    forall i, j :: 0 <= i < j < |g| ==> g[i].sum >= g[j].sum
  }

  /** Places `x` after every entry whose sum is at least its own, before the smaller ones. */
  function Insert(x: Group, t: seq<Group>): (r: seq<Group>)
    ensures |r| == |t| + 1
    ensures multiset(r) == multiset(t) + multiset{x}
  {
    if t == [] || t[|t| - 1].sum >= x.sum then t + [x]
    else
      assert t == t[..|t| - 1] + [t[|t| - 1]];
      Insert(x, t[..|t| - 1]) + [t[|t| - 1]]
  }

  /** `sorted(d.items(), key=lambda x: x[1], reverse=True)`, built by insertion. */
  function SortBySum(g: seq<Group>): (r: seq<Group>)
    ensures |r| == |g|
    ensures multiset(r) == multiset(g)
  {
    if g == [] then [] else
      assert g == g[..|g| - 1] + [g[|g| - 1]];
      Insert(g[|g| - 1], SortBySum(g[..|g| - 1]))
  }

  lemma {:induction false} InsertSorted(x: Group, t: seq<Group>)
    requires NonIncreasing(t)
    ensures NonIncreasing(Insert(x, t))
    ensures forall i :: 0 <= i < |Insert(x, t)| ==> Insert(x, t)[i] == x || Insert(x, t)[i] in t
  {
    if t != [] && t[|t| - 1].sum < x.sum {
      var init := t[..|t| - 1];
      InsertSorted(x, init);
      var r := Insert(x, t);
      var u := Insert(x, init);
      assert r == u + [t[|t| - 1]];
      forall i | 0 <= i < |u|
        ensures u[i].sum >= t[|t| - 1].sum
      {
        if u[i] != x {
          assert u[i] in init;
          var j :| 0 <= j < |init| && init[j] == u[i];
          assert t[j] == init[j];
        }
      }
    }
  }

  /** The listing is in non-increasing order of sums and holds exactly the dictionary's entries. */
  lemma {:induction false} SortedBySum(g: seq<Group>)
    ensures NonIncreasing(SortBySum(g))
    ensures multiset(SortBySum(g)) == multiset(g)
  {
    if g != [] {
      SortedBySum(g[..|g| - 1]);
      InsertSorted(g[|g| - 1], SortBySum(g[..|g| - 1]));
    }
  }

  /** Listing the entries in another order does not change their sum. */
  lemma {:induction false} InsertSum(x: Group, t: seq<Group>)
    ensures SumGroups(Insert(x, t)) == SumGroups(t) + x.sum
  {
    if t == [] || t[|t| - 1].sum >= x.sum {
      SumGroupsAppend(t, x);
    } else {
      var init, last := t[..|t| - 1], t[|t| - 1];
      InsertSum(x, init);
      SumGroupsAppend(Insert(x, init), last);
      SumGroupsAppend(init, last);
      assert init + [last] == t;
    }
  }

  lemma {:induction false} SumGroupsAppend(g: seq<Group>, x: Group)
    ensures SumGroups(g + [x]) == SumGroups(g) + x.sum
  {
    if g != [] {
      SumGroupsAppend(g[1..], x);
      assert (g + [x])[1..] == g[1..] + [x];
    }
  }

  lemma {:induction false} SortKeepsSum(g: seq<Group>)
    ensures SumGroups(SortBySum(g)) == SumGroups(g)
  {
    if g != [] {
      var init, last := g[..|g| - 1], g[|g| - 1];
      SortKeepsSum(init);
      InsertSum(last, SortBySum(init));
      SumGroupsLast(g);
    }
  }

  /** The sum of a non-empty list is the sum of all but its last entry plus the last. */
  lemma {:induction false} SumGroupsLast(g: seq<Group>)
    requires g != []
    ensures SumGroups(g) == SumGroups(g[..|g| - 1]) + g[|g| - 1].sum
  {
    SumGroupsAppend(g[..|g| - 1], g[|g| - 1]);
    assert g[..|g| - 1] + [g[|g| - 1]] == g;
  }

  // ---- shares ----

  /** The percentage the desktop window shows for a group: 0 when the total is not positive. */
  function Share(amount: real, total: real): (p: real)
    ensures 0.0 <= amount <= total ==> 0.0 <= p <= 100.0
    ensures total <= 0.0 ==> p == 0.0
  {
    if total > 0.0 then amount / total * 100.0 else 0.0
  }

  function SumShares(g: seq<Group>, total: real): real
  {
    if g == [] then 0.0 else Share(g[0].sum, total) + SumShares(g[1..], total)
  }

  /** The shares of a listing are its sum as a percentage of the total. */
  lemma {:induction false} SharesOfSum(g: seq<Group>, total: real)
    requires total > 0.0
    ensures SumShares(g, total) == SumGroups(g) / total * 100.0
  {
    if g != [] {
      SharesOfSum(g[1..], total);
      PercentOfSum(g[0].sum, SumGroups(g[1..]), total);
    }
  }

  /** Percentages of two parts of a total add up to the percentage of their sum. */
  lemma PercentOfSum(a: real, b: real, t: real)
    requires t > 0.0
    ensures a / t * 100.0 + b / t * 100.0 == (a + b) / t * 100.0
  {
    var q, r := a / t, b / t;
    assert q * t == a && r * t == b;
    assert (q + r) * t == a + b;
  }

  /**
   * The listing of a grouping is in falling order, adds up to the items' sum,
   * has one entry for each key of the items and no other, and each entry
   * holds the sum of the amounts filed under its key.
   */
  lemma Listing(items: seq<Item>)
    ensures NonIncreasing(SortBySum(Grouped(items)))
    ensures DistinctKeys(SortBySum(Grouped(items)))
    ensures SumGroups(SortBySum(Grouped(items))) == Sum(items)
    ensures Keys(SortBySum(Grouped(items))) == ItemKeys(items)
    ensures forall x :: x in SortBySum(Grouped(items)) ==> x.sum == SumWhere(items, x.key)
  {
    var g := Grouped(items);
    var l := SortBySum(g);
    GroupedTotal(items);
    SortKeepsDistinct(g);
    SortedBySum(g);
    SortKeepsSum(g);
    forall x | x in l
      ensures x.sum == SumWhere(items, x.key)
    {
      assert x in multiset(l);
      MemberLookup(g, x);
      GroupedLookup(items, x.key);
    }
    KeysOfMembers(g);
    KeysOfMembers(l);
    assert forall x :: x in l <==> x in g by {
      forall x ensures x in l <==> x in g {
        assert x in l <==> x in multiset(l);
      }
    }
  }

  /** A list has distinct keys exactly when it has as many keys as entries. */
  lemma {:induction false} DistinctIffKeyCount(g: seq<Group>)
    ensures |Keys(g)| <= |g|
    ensures DistinctKeys(g) <==> |Keys(g)| == |g|
  {
    if g != [] {
      DistinctIffKeyCount(g[1..]);
      if g[0].key in Keys(g[1..]) {
        assert Keys(g) == Keys(g[1..]);
      } else {
        assert |Keys(g)| == |Keys(g[1..])| + 1;
      }
    }
  }

  /** Sorting a list with distinct keys keeps them distinct: the listing names each key once. */
  lemma SortKeepsDistinct(g: seq<Group>)
    requires DistinctKeys(g)
    ensures DistinctKeys(SortBySum(g))
  {
    var l := SortBySum(g);
    KeysOfMembers(g);
    KeysOfMembers(l);
    assert forall x :: x in l <==> x in g by {
      forall x ensures x in l <==> x in g {
        assert x in l <==> x in multiset(l);
      }
    }
    assert Keys(l) == Keys(g);
    DistinctIffKeyCount(g);
    DistinctIffKeyCount(l);
  }

  /** In a list with distinct keys, an entry's key looks up that entry's sum. */
  lemma {:induction false} MemberLookup(g: seq<Group>, x: Group)
    requires DistinctKeys(g) && x in g
    ensures Lookup(g, x.key) == x.sum
  {
    if g[0] != x {
      MemberLookup(g[1..], x);
      KeysOfMembers(g[1..]);
    }
  }

  /** The keys of a list are the keys of its entries. */
  lemma {:induction false} KeysOfMembers(g: seq<Group>)
    ensures Keys(g) == set x | x in g :: x.key
  {
    if g != [] {
      KeysOfMembers(g[1..]);
      assert forall x :: x in g <==> x == g[0] || x in g[1..];
    }
  }

  // ---- the desktop statistics window ----

  /** `exp.get('type', 'أخرى')` with the amount, per record. */
  function ByType(s: seq<Expense>): (items: seq<Item>)
    ensures |items| == |s|
    ensures forall i :: 0 <= i < |s| ==> items[i].0 == s[i].kind.GetOr(OtherKind) && items[i].1 == Amount(s[i])
    ensures Sum(items) == Total(s)
  {
    var items := seq(|s|, i requires 0 <= i < |s| => (s[i].kind.GetOr(OtherKind), Amount(s[i])));
    ItemsTotal(s, items);
    items
  }

  /** `exp.get('payment_method', 'نقدي')` with the amount, per record. */
  function ByPayment(s: seq<Expense>): (items: seq<Item>)
    ensures |items| == |s|
    ensures forall i :: 0 <= i < |s| ==> items[i].0 == s[i].payment.GetOr(Cash) && items[i].1 == Amount(s[i])
    ensures Sum(items) == Total(s)
  {
    var items := seq(|s|, i requires 0 <= i < |s| => (s[i].payment.GetOr(Cash), Amount(s[i])));
    ItemsTotal(s, items);
    items
  }

  /** The amounts of the items are the amounts of the records. */
  lemma {:induction false} ItemsTotal(s: seq<Expense>, items: seq<Item>)
    requires |items| == |s|
    requires forall i :: 0 <= i < |s| ==> items[i].1 == Amount(s[i])
    ensures Sum(items) == Total(s)
  {
    if s != [] {
      ItemsTotal(s[..|s| - 1], items[..|items| - 1]);
    }
  }

  function Largest(s: seq<Expense>): (m: real)
    requires s != []
    ensures forall i :: 0 <= i < |s| ==> Amount(s[i]) <= m
    ensures exists i :: 0 <= i < |s| && Amount(s[i]) == m
  {
    if |s| == 1 then Amount(s[0])
    else
      var m := Largest(s[..|s| - 1]);
      assert forall i :: 0 <= i < |s| - 1 ==> s[..|s| - 1][i] == s[i];
      if Amount(s[|s| - 1]) > m then Amount(s[|s| - 1]) else m
  }

  function Smallest(s: seq<Expense>): (m: real)
    requires s != []
    ensures forall i :: 0 <= i < |s| ==> m <= Amount(s[i])
    ensures exists i :: 0 <= i < |s| && Amount(s[i]) == m
  {
    if |s| == 1 then Amount(s[0])
    else
      var m := Smallest(s[..|s| - 1]);
      assert forall i :: 0 <= i < |s| - 1 ==> s[..|s| - 1][i] == s[i];
      if Amount(s[|s| - 1]) < m then Amount(s[|s| - 1]) else m
  }

  /** What the statistics window shows. The group lists are in display order. */
  datatype Summary = Summary(
    total: real, count: nat, average: real, highest: real, lowest: real,
    byType: seq<Group>, byPayment: seq<Group>)

  /**
   * `show_statistics` over the whole ledger (never the filtered list): `None`
   * for an empty ledger, where the window refuses to open.
   */
  function Summarize(s: seq<Expense>): (r: Option<Summary>)
    ensures r.None? <==> s == []
    ensures r.Some? ==> r.value.count == |s| && r.value.total == Total(s)
    ensures r.Some? ==> r.value.average == Total(s) / |s| as real
    ensures r.Some? ==> NonIncreasing(r.value.byType) && NonIncreasing(r.value.byPayment)
    ensures r.Some? ==> SumGroups(r.value.byType) == Total(s) && SumGroups(r.value.byPayment) == Total(s)
    ensures r.Some? ==> forall i :: 0 <= i < |s| ==> r.value.lowest <= Amount(s[i]) <= r.value.highest
    ensures r.Some? ==>
      (exists i :: 0 <= i < |s| && Amount(s[i]) == r.value.highest)
      && (exists i :: 0 <= i < |s| && Amount(s[i]) == r.value.lowest)
    // one entry per type (per payment method) seen, holding the amounts filed under it
    ensures r.Some? ==> Keys(r.value.byType) == ItemKeys(ByType(s)) && Keys(r.value.byPayment) == ItemKeys(ByPayment(s))
    ensures r.Some? ==> forall x :: x in r.value.byType ==> x.sum == SumWhere(ByType(s), x.key)
    ensures r.Some? ==> forall x :: x in r.value.byPayment ==> x.sum == SumWhere(ByPayment(s), x.key)
    ensures r.Some? ==> DistinctKeys(r.value.byType) && DistinctKeys(r.value.byPayment)
  {
    if s == [] then None
    else
      Listing(ByType(s));
      Listing(ByPayment(s));
      Some(Summary(Total(s), |s|, Total(s) / |s| as real, Largest(s), Smallest(s),
                   SortBySum(Grouped(ByType(s))), SortBySum(Grouped(ByPayment(s)))))
  }

  /** With a positive total, the percentages shown for a list whose sums make up the total add up to 100. */
  lemma SharesAddUp(g: seq<Group>, total: real)
    requires total > 0.0 && SumGroups(g) == total
    ensures SumShares(g, total) == 100.0
  {
    SharesOfSum(g, total);
    assert SumGroups(g) / total == 1.0;
  }
}

=== FILE: store.dfy ===
/**
 * The user store on disk: a primary file and a backup file. Loading prefers
 * the primary and back-fills keys older records lack; saving first copies
 * the primary's text to the backup, then writes the primary.
 */
module Store {
  import opened Wrappers
  import opened Records

  /**
   * What a file holds: nothing (it does not exist), text that is not a user
   * map (JSON that fails to parse, or a shape the back-fill cannot walk), or
   * a user map.
   */
  datatype Slot = Missing | Unreadable | Holds(users: Users)

  datatype Disk = Disk(primary: Slot, backup: Slot)

  /** `upgrade_user_data` on one record: only missing keys get their defaults. */
  function Upgrade(a: Account): (u: Account)
    ensures u.expenses == (if a.expenses.Some? then a.expenses else Some([]))
    ensures u.paymentMethod == (if a.paymentMethod.Some? then a.paymentMethod else Some(Cash))
    ensures u.companyName == (if a.companyName.Some? then a.companyName else Some(Unspecified))
  {
    a.(expenses := Some(a.expenses.GetOr([])),
       paymentMethod := Some(a.paymentMethod.GetOr(Cash)),
       companyName := Some(a.companyName.GetOr(Unspecified)))
  }

  /** Every record of the map upgraded. */
  function UpgradeAll(m: Users): (r: Users)
    ensures r.Keys == m.Keys
  {
    map k | k in m :: Upgrade(m[k])
  }

  /** A record that already has all three keys. */
  predicate Upgraded(a: Account)
  {
    a.expenses.Some? && a.paymentMethod.Some? && a.companyName.Some?
  }

  /** The back-fill changes nothing but the three keys, leaves present values alone, and leaves every record upgraded. */
  lemma UpgradeOnlyFills(a: Account)
    ensures Upgraded(Upgrade(a))
    ensures Upgrade(a).(expenses := a.expenses, paymentMethod := a.paymentMethod, companyName := a.companyName) == a
    ensures Upgraded(a) ==> Upgrade(a) == a
  {
  }

  /** Upgrading twice is upgrading once. */
  lemma UpgradeIdempotent(m: Users)
    ensures UpgradeAll(UpgradeAll(m)) == UpgradeAll(m)
  {
    forall k | k in m
      ensures UpgradeAll(UpgradeAll(m))[k] == UpgradeAll(m)[k]
    {
      UpgradeOnlyFills(m[k]);
      UpgradeOnlyFills(Upgrade(m[k]));
    }
  }

  /**
   * `load_users`: a readable primary is upgraded; an unreadable one falls back
   * to the backup as it is, without the upgrade; a missing primary gives an
   * empty store without looking at the backup.
   */
  function LoadUsers(d: Disk): (m: Users)
  {
    match d.primary
    case Missing => map[]
    case Holds(users) => UpgradeAll(users)
    case Unreadable =>
      match d.backup
      case Holds(users) => users
      case _ => map[]
  }

  /** `save_users`: the backup gets whatever the primary held, when there is a primary; then the primary holds `m`. */
  function SaveUsers(d: Disk, m: Users): (r: Disk)
    ensures r.primary == Holds(m)
    ensures r.backup == if d.primary.Missing? then d.backup else d.primary
  {
    Disk(Holds(m), if d.primary.Missing? then d.backup else d.primary)
  }

  /** What was saved loads back, upgraded. */
  lemma LoadAfterSave(d: Disk, m: Users)
    ensures LoadUsers(SaveUsers(d, m)) == UpgradeAll(m)
  {
  }

  /**
   * After two saves, a primary that became unreadable loads as the first of
   * the two maps, without the upgrade: the backup is one save behind.
   */
  lemma BackupIsOneSaveBehind(d: Disk, m1: Users, m2: Users)
    ensures SaveUsers(SaveUsers(d, m1), m2).backup == Holds(m1)
    ensures LoadUsers(Disk(Unreadable, SaveUsers(SaveUsers(d, m1), m2).backup)) == m1
  {
  }

  /** When neither file can be read the store starts empty; a missing primary never consults the backup. */
  lemma LoadFallbacks(d: Disk)
    ensures d.primary.Missing? ==> LoadUsers(d) == map[]
    ensures d.primary.Unreadable? && !d.backup.Holds? ==> LoadUsers(d) == map[]
    ensures d.primary.Unreadable? && d.backup.Holds? ==> LoadUsers(d) == d.backup.users
  {
  }
}

=== FILE: text.dfy ===
/**
 * The few string operations of Python's `str` that the tracker relies on:
 * `strip()`, `lower()`, the `in` substring test, `replace(c, '')`, and the
 * decimal digits used when numbers are printed or parsed.
 */
module Text {

  /** `c.isspace()` in Python 3: the characters `str.strip()` removes. */
  predicate IsSpace(c: char)
  {
    || c == ' ' || c == '\t' || c == '\n' || c == '\r' || c == '\U{0B}' || c == '\U{0C}'
    || ('\U{1C}' <= c <= '\U{1F}') || c == '\U{85}' || c == '\U{A0}' || c == '\U{1680}'
    || ('\U{2000}' <= c <= '\U{200A}') || c == '\U{2028}' || c == '\U{2029}'
    || c == '\U{202F}' || c == '\U{205F}' || c == '\U{3000}'
  }

  /** `s.lstrip()`. */
  function StripLeft(s: string): (r: string)
    ensures |r| <= |s|
    ensures r != [] ==> !IsSpace(r[0])
  {
    if s != [] && IsSpace(s[0]) then StripLeft(s[1..]) else s
  }

  /** `s.rstrip()`. */
  function StripRight(s: string): (r: string)
    ensures |r| <= |s|
    ensures r != [] ==> !IsSpace(r[|r| - 1])
  {
    if s != [] && IsSpace(s[|s| - 1]) then StripRight(s[..|s| - 1]) else s
  }

  /** `lstrip()` keeps a suffix and removes only white space. */
  lemma {:induction false} StripLeftSlice(s: string)
    ensures StripLeft(s) == s[|s| - |StripLeft(s)|..]
    ensures forall k :: 0 <= k < |s| - |StripLeft(s)| ==> IsSpace(s[k])
  {
    if s != [] && IsSpace(s[0]) {
      StripLeftSlice(s[1..]);
    }
  }

  /** `rstrip()` keeps a prefix and removes only white space. */
  lemma {:induction false} StripRightSlice(s: string)
    ensures StripRight(s) == s[..|StripRight(s)|]
    ensures forall k :: |StripRight(s)| <= k < |s| ==> IsSpace(s[k])
  {
    if s != [] && IsSpace(s[|s| - 1]) {
      StripRightSlice(s[..|s| - 1]);
    }
  }

  /** `r` is the slice of `s` at `i`, and everything of `s` around it is white space. */
  predicate TrimmedAt(s: string, r: string, i: int)
  {
    && 0 <= i <= i + |r| <= |s| && r == s[i..i + |r|]
    && (forall k :: 0 <= k < i ==> IsSpace(s[k]))
    && (forall k :: i + |r| <= k < |s| ==> IsSpace(s[k]))
  }

  /** Python's `s.strip()`: the slice of `s` left after removing leading and trailing white space. */
  function Strip(s: string): (r: string)
    ensures |r| <= |s|
    ensures r != [] ==> !IsSpace(r[0]) && !IsSpace(r[|r| - 1])
  {
    StripRightSlice(StripLeft(s));
    StripRight(StripLeft(s))
  }

  /** What `strip()` keeps is one slice of the text, with only white space around it. */
  lemma StripSlice(s: string)
    ensures exists i :: TrimmedAt(s, Strip(s), i)
  {
    var left := StripLeft(s);
    StripLeftSlice(s);
    StripRightSlice(left);
    assert TrimmedAt(s, Strip(s), |s| - |left|);
  }

  /** A string is blank (falsy after `strip()`) exactly when every character is white space. */
  lemma {:induction false} StripEmptyIffBlank(s: string)
    ensures Strip(s) == [] <==> forall k :: 0 <= k < |s| ==> IsSpace(s[k])
  {
    if forall k :: 0 <= k < |s| ==> IsSpace(s[k]) {
      StripLeftAllSpace(s);
    } else {
      StripLeftSlice(s);
      StripRightSlice(StripLeft(s));
    }
  }

  lemma {:induction false} StripLeftAllSpace(s: string)
    requires forall k :: 0 <= k < |s| ==> IsSpace(s[k])
    ensures StripLeft(s) == []
  {
    if s != [] {
      StripLeftAllSpace(s[1..]);
    }
  }

  /** A string without white space at either end is its own `strip()`. */
  lemma StripTrimmed(s: string)
    requires s != [] ==> !IsSpace(s[0]) && !IsSpace(s[|s| - 1])
    ensures Strip(s) == s
  {
  }

  /** `strip()` is idempotent. */
  lemma StripIdempotent(s: string)
    ensures Strip(Strip(s)) == Strip(s)
  {
    StripTrimmed(Strip(s));
  }

  /** ASCII upper case to lower case; every other character is left alone. */
  function LowerChar(c: char): char
  {
    if 'A' <= c <= 'Z' then (c as int + 32) as char else c
  }

  /** Python's `s.lower()`, restricted to the ASCII letters. */
  function Lower(s: string): (r: string)
    ensures |r| == |s|
    ensures forall i :: 0 <= i < |r| ==> !('A' <= r[i] <= 'Z')
    ensures forall i :: 0 <= i < |s| && 'A' <= s[i] <= 'Z' ==> r[i] as int == s[i] as int + 32
    ensures forall i :: 0 <= i < |s| && !('A' <= s[i] <= 'Z') ==> r[i] == s[i]
  {
    seq(|s|, k requires 0 <= k < |s| => LowerChar(s[k]))
  }

  /** Lower-casing twice is lower-casing once. */
  lemma LowerIdempotent(s: string)
    ensures Lower(Lower(s)) == Lower(s)
  {
    var l := Lower(s);
    assert forall i :: 0 <= i < |l| ==> Lower(l)[i] == l[i];
  }

  /** Python's `needle in hay` for strings: `needle` occurs as a contiguous slice of `hay`. */
  predicate Contains(hay: string, needle: string)
  {
    exists i | 0 <= i <= |hay| :: OccursAt(hay, needle, i)
  }

  predicate OccursAt(hay: string, needle: string, i: int)
  {
    0 <= i && i + |needle| <= |hay| && hay[i..i + |needle|] == needle
  }

  /** Python's `s.replace(c, '')`. */
  function Without(s: string, c: char): (r: string)
    ensures |r| <= |s|
    ensures c !in r
    ensures c !in s ==> r == s
    ensures multiset(r) == multiset(s)[c := 0]
  {
    if s == [] then []
    else
      assert s == [s[0]] + s[1..];
      (if s[0] == c then [] else [s[0]]) + Without(s[1..], c)
  }

  /** The index of the first `c` in `s`, or `|s|` when there is none. */
  function Find(s: string, c: char): (k: nat)
    ensures k <= |s|
    ensures k < |s| ==> s[k] == c
    ensures forall j :: 0 <= j < k ==> s[j] != c
  {
    if s == [] then 0 else if s[0] == c then 0 else 1 + Find(s[1..], c)
  }

  /** The index of the last `c` in `s`, or -1 when there is none. */
  function FindLast(s: string, c: char): (k: int)
    ensures -1 <= k < |s|
    ensures k >= 0 ==> s[k] == c
    ensures forall j :: k < j < |s| ==> s[j] != c
  {
    if s == [] then -1
    else if s[|s| - 1] == c then |s| - 1
    else FindLast(s[..|s| - 1], c)
  }

  predicate IsDigit(c: char)
  {
    '0' <= c <= '9'
  }

  predicate AllDigits(s: string)
  {
    forall k :: 0 <= k < |s| ==> IsDigit(s[k])
  }

  function DigitChar(d: nat): (c: char)
    requires d < 10
    ensures IsDigit(c)
  {
    ('0' as int + d) as char
  }

  function DigitValue(c: char): (d: nat)
    requires IsDigit(c)
    ensures d < 10 && DigitChar(d) == c
  {
    c as int - '0' as int
  }

  /** The decimal value of a string of digits, most significant first. */
  function DigitsValue(s: string): nat
    requires AllDigits(s)
  {
    if s == [] then 0 else DigitsValue(s[..|s| - 1]) * 10 + DigitValue(s[|s| - 1])
  }

  /** `str(n)` for a natural number: its shortest decimal form. */
  function NatToString(n: nat): (r: string)
    ensures r != [] && AllDigits(r)
  {
    if n < 10 then [DigitChar(n)] else NatToString(n / 10) + [DigitChar(n % 10)]
  }

  /** `n` written with at least `width` digits, padded with leading zeros (`%02d`, `%04d`). */
  function ZeroPad(n: nat, width: nat): (r: string)
    ensures AllDigits(r) && |r| >= width
  {
    var digits := NatToString(n);
    if |digits| >= width then digits else seq(width - |digits|, _ => '0') + digits
  }

  /** Printing a number and reading it back gives the number. */
  lemma {:induction false} NatToStringRoundTrip(n: nat)
    ensures DigitsValue(NatToString(n)) == n
  {
    var r := NatToString(n);
    if n < 10 {
    } else {
      NatToStringRoundTrip(n / 10);
      assert r[..|r| - 1] == NatToString(n / 10);
    }
  }

  /** Leading zeros do not change the value of a digit string. */
  lemma {:induction false} LeadingZeros(z: nat, s: string)
    requires AllDigits(s)
    ensures AllDigits(seq(z, _ => '0') + s)
    ensures DigitsValue(seq(z, _ => '0') + s) == DigitsValue(s)
  {
    var t := seq(z, _ => '0') + s;
    if s == [] {
      ZerosValue(z);
      assert t == seq(z, _ => '0');
    } else {
      LeadingZeros(z, s[..|s| - 1]);
      assert t[..|t| - 1] == seq(z, _ => '0') + s[..|s| - 1];
    }
  }

  lemma {:induction false} ZerosValue(z: nat)
    ensures AllDigits(seq(z, _ => '0')) && DigitsValue(seq(z, _ => '0')) == 0
  {
    if z > 0 {
      ZerosValue(z - 1);
      assert seq(z, _ => '0')[..z - 1] == seq(z - 1, _ => '0');
    }
  }

  /** A zero-padded number reads back as the number. */
  lemma ZeroPadRoundTrip(n: nat, width: nat)
    ensures DigitsValue(ZeroPad(n, width)) == n
  {
    NatToStringRoundTrip(n);
    var digits := NatToString(n);
    if |digits| < width {
      LeadingZeros(width - |digits|, digits);
    }
  }

  /** A number below 10^width is padded to exactly `width` digits. */
  lemma {:induction false} ZeroPadWidth(n: nat, width: nat)
    requires width >= 1 && n < Pow10(width)
    ensures |ZeroPad(n, width)| == width
  {
    NatToStringLength(n, width);
  }

  function Pow10(k: nat): (p: nat)
    ensures p >= 1
  {
    if k == 0 then 1 else 10 * Pow10(k - 1)
  }

  lemma {:induction false} NatToStringLength(n: nat, width: nat)
    requires width >= 1 && n < Pow10(width)
    ensures |NatToString(n)| <= width
  {
    if n >= 10 {
      assert Pow10(1) == 10;
      assert width >= 2;
      NatToStringLength(n / 10, width - 1);
    }
  }
}

=== FILE: tracker.dfy ===
/**
 * The desktop tracker's window state: the user store and its two files, the
 * signed-in account (a copy of its stored record carrying its user name),
 * the working copy of its ledger, the filter, the receipt attached for the
 * next record, and the rows of the expense table. Each button of the window
 * is one method; message boxes and confirmations are parameters.
 */
module Tracker {
  import opened Wrappers
  import opened Text
  import opened Calendar
  import opened Records
  import opened Store
  import Accounts
  import opened Ledger
  import opened Filtering
  import Statistics
  import Report

  /** What the edit command ends in. */
  datatype EditOutcome = NoSelection | BadRow | Refused(error: EditError) | Saved(record: Expense)

  class ExpenseTracker {
    /** The store file and its backup. */
    var disk: Disk
    /** `users_data`. */
    var users: Users
    /** `current_user`: the signed-in account's record with its `username` key. */
    var currentUser: Option<Account>
    /** `expenses`: the working copy of the signed-in user's ledger. */
    var expenses: seq<Expense>
    /** `filtered_expenses`, meaningful while `filterActive`. */
    var filtered: seq<Expense>
    var filterActive: bool
    /** `current_receipt`: the file attached for the next record. */
    var receipt: Option<string>
    /** The rows of the expense table, top to bottom. */
    var rows: seq<Row>
    /** The password digest (SHA-256 in hex). */
    const hash: string -> string

    /** Whoever is signed in has a user name that is a key of the store. */
    ghost predicate Valid()
      reads this
    {
      currentUser.Some? ==> currentUser.value.username.Some? && currentUser.value.username.value in users
    }

    /** The list the table and the totals show: the filtered list while a filter is active. */
    function Shown(): (s: seq<Expense>)
      reads this
      ensures s == if filterActive then filtered else expenses
    {
      if filterActive then filtered else expenses
    }

    /** Start-up: the store loaded with the back-fill, nobody signed in, no filter. */
    constructor(d: Disk, hash: string -> string)
      ensures disk == d && users == LoadUsers(d) && this.hash == hash
      ensures currentUser.None? && expenses == [] && !filterActive && receipt.None? && rows == []
      ensures Valid()
    {
      disk := d;
      this.hash := hash;
      currentUser := None;
      expenses := [];
      filtered := [];
      filterActive := false;
      receipt := None;
      rows := [];
      match d.primary {
        case Missing => users := map[];
        case Holds(m) => users := m;
        case Unreadable =>
          users := match d.backup case Holds(m) => m case _ => map[];
      }
      new;
      if d.primary.Holds? {
        UpgradeUserData();
      }
    }

    /** `upgrade_user_data`: one pass over the user names, back-filling each record. */
    method UpgradeUserData()
      modifies this
      ensures users == UpgradeAll(old(users))
      ensures disk == old(disk) && currentUser == old(currentUser) && expenses == old(expenses)
      ensures filtered == old(filtered) && filterActive == old(filterActive)
      ensures receipt == old(receipt) && rows == old(rows)
    {
      var pending := users.Keys;
      while pending != {}
        invariant pending <= users.Keys && users.Keys == old(users).Keys
        invariant forall k :: k in users ==> users[k] == if k in pending then old(users)[k] else Upgrade(old(users)[k])
        invariant disk == old(disk) && currentUser == old(currentUser) && expenses == old(expenses)
        invariant filtered == old(filtered) && filterActive == old(filterActive)
        invariant receipt == old(receipt) && rows == old(rows)
        decreases pending
      {
        var k :| k in pending;
        users := users[k := Upgrade(users[k])];
        pending := pending - {k};
      }
      assert users == UpgradeAll(old(users));
    }

    /** `save_users`: the backup takes the primary's contents, the primary the store. */
    method SaveUsers()
      modifies this
      ensures disk == Store.SaveUsers(old(disk), users)
      ensures users == old(users) && currentUser == old(currentUser) && expenses == old(expenses)
      ensures filtered == old(filtered) && filterActive == old(filterActive)
      ensures receipt == old(receipt) && rows == old(rows)
    {
      disk := Store.SaveUsers(disk, users);
    }

    /**
     * `save_user_expenses`: the signed-in copy takes the working ledger and the
     * payment method chosen in the window, replaces the stored record and the
     * store is saved.
     */
    method SaveUserExpenses(choice: string)
      requires Valid() && currentUser.Some?
      modifies this
      ensures currentUser == Some(old(currentUser).value.(expenses := Some(expenses), paymentMethod := Some(choice)))
      ensures users == old(users)[currentUser.value.username.value := currentUser.value]
      ensures disk == Store.SaveUsers(old(disk), users)
      ensures expenses == old(expenses) && filtered == old(filtered) && filterActive == old(filterActive)
      ensures receipt == old(receipt) && rows == old(rows)
      ensures Valid()
    {
      currentUser := Some(currentUser.value.(expenses := Some(expenses), paymentMethod := Some(choice)));
      users := users[currentUser.value.username.value := currentUser.value];
      SaveUsers();
    }

    /** `refresh_treeview`: the table shows the current list. */
    method RefreshTable()
      modifies this
      ensures rows == DisplayRows(Shown())
      ensures disk == old(disk) && users == old(users) && currentUser == old(currentUser)
      ensures expenses == old(expenses) && filtered == old(filtered) && filterActive == old(filterActive)
      ensures receipt == old(receipt)
    {
      rows := DisplayRows(Shown());
    }

    /** `register`: a form that passes every check adds one account and saves the store. */
    method Register(f: Accounts.RegisterForm, createdAt: string) returns (r: Result<Users, Accounts.FormError>)
      requires Valid()
      modifies this
      ensures r == Accounts.Register(old(users), Accounts.Stripped(f), hash, createdAt)
      ensures r.Ok? ==> users == r.value && disk == Store.SaveUsers(old(disk), users)
      ensures r.Err? ==> users == old(users) && disk == old(disk)
      ensures currentUser == old(currentUser) && expenses == old(expenses) && rows == old(rows)
      ensures filtered == old(filtered) && filterActive == old(filterActive) && receipt == old(receipt)
      ensures Valid()
    {
      r := Accounts.Register(users, Accounts.Stripped(f), hash, createdAt);
      if r.Ok? {
        users := r.value;
        SaveUsers();
      }
    }

    /**
     * `login`: on success the window keeps a copy of the stored record and of
     * its ledger and opens the main view, whose table shows the current list;
     * the filter is left as it was. An account without a name stops the
     * greeting before the main view is built.
     */
    method Login(username: string, password: string) returns (o: Accounts.LoginOutcome)
      requires Valid()
      modifies this
      ensures o == Accounts.Login(old(users), username, password, hash)
      ensures o.Welcome? ==> currentUser == Some(o.user) && expenses == o.ledger
      ensures o.Welcome? && o.user.name.Some? ==> rows == DisplayRows(Shown())
      ensures o.Welcome? && o.user.name.None? ==> rows == old(rows)
      ensures !o.Welcome? ==> currentUser == old(currentUser) && expenses == old(expenses) && rows == old(rows)
      ensures users == old(users) && disk == old(disk) && receipt == old(receipt)
      ensures filtered == old(filtered) && filterActive == old(filterActive)
      ensures Valid()
    {
      o := Accounts.Login(users, username, password, hash);
      if o.Welcome? {
        currentUser := Some(o.user);
        expenses := o.ledger;
        if o.user.name.Some? {
          RefreshTable();
        }
      }
    }

    /** `attach_receipt`: a chosen file becomes the receipt of the next record; cancelling keeps the last one. */
    method AttachReceipt(filename: string)
      modifies this
      ensures receipt == if filename != "" then Some(filename) else old(receipt)
      ensures disk == old(disk) && users == old(users) && currentUser == old(currentUser)
      ensures expenses == old(expenses) && filtered == old(filtered) && filterActive == old(filterActive)
      ensures rows == old(rows)
    {
      if filename != "" {
        receipt := Some(filename);
      }
    }

    /**
     * `add_expense`: an accepted form appends the record to the ledger and
     * its row to the end of the table (even while a filter is active), saves
     * with the form's payment method and forgets the attached receipt.
     */
    method AddExpense(f: AddForm, stamp: string) returns (r: Result<Expense, AddError>)
      requires Valid() && currentUser.Some?
      modifies this
      ensures r == CheckAdd(f.(receipt := old(receipt)), stamp)
      ensures r.Ok? ==> expenses == old(expenses) + [r.value] && rows == old(rows) + [DisplayRow(r.value)]
      ensures r.Ok? ==> receipt.None?
      ensures r.Ok? ==> currentUser == Some(old(currentUser).value.(expenses := Some(expenses), paymentMethod := Some(f.payment)))
      ensures r.Ok? ==> users == old(users)[currentUser.value.username.value := currentUser.value]
      ensures r.Ok? ==> disk == Store.SaveUsers(old(disk), users)
      ensures r.Err? ==> expenses == old(expenses) && rows == old(rows) && receipt == old(receipt)
      ensures r.Err? ==> currentUser == old(currentUser) && users == old(users) && disk == old(disk)
      ensures filtered == old(filtered) && filterActive == old(filterActive)
      ensures Valid()
    {
      r := CheckAdd(f.(receipt := receipt), stamp);
      if r.Ok? {
        Append(r.value, f.payment);
      }
    }

    /** The part of `add_expense` after the checks. */
    method Append(e: Expense, choice: string)
      requires Valid() && currentUser.Some?
      modifies this
      ensures expenses == old(expenses) + [e] && rows == old(rows) + [DisplayRow(e)] && receipt.None?
      ensures currentUser == Some(old(currentUser).value.(expenses := Some(expenses), paymentMethod := Some(choice)))
      ensures users == old(users)[currentUser.value.username.value := currentUser.value]
      ensures disk == Store.SaveUsers(old(disk), users)
      ensures filtered == old(filtered) && filterActive == old(filterActive)
      ensures Valid()
    {
      expenses := expenses + [e];
      SaveUserExpenses(choice);
      rows := rows + [DisplayRow(e)];
      receipt := None;
    }

    /**
     * `delete_expense`: the selected row leaves the table and the record at
     * the same position leaves the ledger; when the ledger is shorter than
     * that, the ledger is rebuilt from the remaining rows. Then the store is
     * saved. No selection, or a declined confirmation, changes nothing.
     */
    method DeleteExpense(selection: Option<nat>, confirmed: bool, choice: string)
      requires Valid() && currentUser.Some?
      requires selection.Some? ==> selection.value < |rows|
      modifies this
      ensures selection.None? || !confirmed ==>
        rows == old(rows) && expenses == old(expenses) && users == old(users) && disk == old(disk)
        && currentUser == old(currentUser)
      ensures selection.Some? && confirmed ==> rows == RemoveAt(old(rows), selection.value)
      ensures selection.Some? && confirmed ==>
        expenses == if selection.value < |old(expenses)| then RemoveAt(old(expenses), selection.value) else RebuildAll(rows)
      ensures selection.Some? && confirmed ==>
        currentUser == Some(old(currentUser).value.(expenses := Some(expenses), paymentMethod := Some(choice)))
        && users == old(users)[currentUser.value.username.value := currentUser.value]
        && disk == Store.SaveUsers(old(disk), users)
      ensures filtered == old(filtered) && filterActive == old(filterActive) && receipt == old(receipt)
      ensures Valid()
    {
      if selection.None? || !confirmed {
        return;
      }
      var index := selection.value;
      rows := RemoveAt(rows, index);
      if index < |expenses| {
        expenses := RemoveAt(expenses, index);
      } else {
        expenses := Rebuild(rows);
      }
      SaveUserExpenses(choice);
    }

    /**
     * `edit_selected_expense` with `save_edit`: the selected position must be
     * within the ledger; an accepted form replaces the record at that
     * position, saves and redraws the table.
     */
    method EditExpense(selection: Option<nat>, f: EditForm, stamp: string, choice: string) returns (o: EditOutcome)
      requires Valid() && currentUser.Some?
      modifies this
      ensures o == NoSelection <==> selection.None?
      ensures o == BadRow <==> selection.Some? && selection.value >= |old(expenses)|
      ensures o.Refused? || o.Saved? ==>
        selection.Some? && selection.value < |old(expenses)|
        && CheckEdit(old(expenses)[selection.value], f, stamp) == (if o.Saved? then Ok(o.record) else Err(o.error))
      ensures o.Saved? ==> expenses == old(expenses)[selection.value := o.record] && rows == DisplayRows(Shown())
      ensures o.Saved? ==>
        currentUser == Some(old(currentUser).value.(expenses := Some(expenses), paymentMethod := Some(choice)))
        && users == old(users)[currentUser.value.username.value := currentUser.value]
        && disk == Store.SaveUsers(old(disk), users)
      ensures !o.Saved? ==>
        expenses == old(expenses) && rows == old(rows) && users == old(users) && disk == old(disk)
        && currentUser == old(currentUser)
      ensures filtered == old(filtered) && filterActive == old(filterActive) && receipt == old(receipt)
      ensures Valid()
    {
      if selection.None? {
        return NoSelection;
      }
      var index := selection.value;
      if index >= |expenses| {
        return BadRow;
      }
      var r := CheckEdit(expenses[index], f, stamp);
      if r.Err? {
        return Refused(r.error);
      }
      expenses := expenses[index := r.value];
      SaveUserExpenses(choice);
      RefreshTable();
      o := Saved(r.value);
    }

    /**
     * `filter_expenses`: the search text is stripped and lower-cased; the
     * filtered list is recomputed from the whole ledger, the filter counts as
     * active when there is search text or a period other than "all", and the
     * table is redrawn.
     */
    method FilterExpenses(search: string, period: Period, now: DateTime)
      requires ValidDateTime(now)
      modifies this
      ensures filtered == Filtered(expenses, Lower(Strip(search)), period, now)
      ensures filterActive == (Lower(Strip(search)) != "" || period != AllTime)
      ensures rows == DisplayRows(Shown())
      ensures disk == old(disk) && users == old(users) && currentUser == old(currentUser)
      ensures expenses == old(expenses) && receipt == old(receipt)
      // the totals then count part of the ledger: no more records, and no larger sum when no amount is negative
      ensures ShownTotals().0 <= |expenses|
      ensures (forall i :: 0 <= i < |expenses| ==> Amount(expenses[i]) >= 0.0) ==> ShownTotals().1 <= Total(expenses)
    {
      var needle := Lower(Strip(search));
      filtered := FilterLoop(expenses, needle, period, now);
      filterActive := needle != "" || period != AllTime;
      RefreshTable();
      if forall i :: 0 <= i < |expenses| ==> Amount(expenses[i]) >= 0.0 {
        FilteredTotal(expenses, needle, period, now);
      }
    }

    /** `clear_filter`: the whole ledger is shown again. */
    method ClearFilter()
      modifies this
      ensures !filterActive && rows == DisplayRows(expenses)
      ensures ShownTotals() == (|expenses|, Total(expenses))
      ensures disk == old(disk) && users == old(users) && currentUser == old(currentUser)
      ensures expenses == old(expenses) && filtered == old(filtered) && receipt == old(receipt)
    {
      filterActive := false;
      RefreshTable();
    }

    /** `update_total`: the count and the sum of the amounts of the list shown. */
    function ShownTotals(): (t: (nat, real))
      reads this
      ensures t.0 == |Shown()| && t.1 == Total(Shown())
      ensures !filterActive ==> t == (|expenses|, Total(expenses))
    {
      (|Shown()|, Total(Shown()))
    }

    /**
     * `show_statistics` over the whole ledger, whatever the filter: the two
     * breakdowns are accumulated record by record, then listed by sum.
     */
    method ShowStatistics() returns (r: Option<Statistics.Summary>)
      ensures r == Statistics.Summarize(expenses)
    {
      if expenses == [] {
        return None;
      }
      var types := Statistics.GroupLoop(Statistics.ByType(expenses));
      var payments := Statistics.GroupLoop(Statistics.ByPayment(expenses));
      var total := Total(expenses);
      r := Some(Statistics.Summary(total, |expenses|, total / |expenses| as real,
        Statistics.Largest(expenses), Statistics.Smallest(expenses),
        Statistics.SortBySum(types), Statistics.SortBySum(payments)));
    }

    /** `create_excel_report` for the signed-in account over the whole ledger, whatever the filter. */
    method CreateReport(filename: string, probe: string -> Report.ImageProbe, reportDate: string)
      returns (o: Report.Outcome)
      requires currentUser.Some?
      ensures o == Report.NoExpenses <==> expenses == []
      ensures o == Report.Cancelled <==> expenses != [] && filename == ""
      ensures o.Written? ==> Report.LinesOf(o.sheet.lines, expenses, probe) && o.sheet.total == Total(expenses)
    {
      o := Report.CreateReport(currentUser.value, expenses, filename, probe, reportDate);
    }

    /**
     * `save_profile`: an accepted form updates the stored record and saves;
     * the signed-in copy is then the stored record again, its ledger being
     * the one last saved, and the main view is rebuilt.
     */
    method SaveProfile(f: Accounts.ProfileForm) returns (r: Result<Users, Accounts.FormError>)
      requires Valid() && currentUser.Some?
      modifies this
      ensures r == Accounts.SaveProfile(old(users), old(currentUser).value.username.value, f, hash)
      ensures r.Ok? ==> users == r.value && disk == Store.SaveUsers(old(disk), users)
      ensures r.Ok? ==> currentUser == Some(users[old(currentUser).value.username.value].(username := old(currentUser).value.username))
      ensures r.Ok? ==> rows == DisplayRows(Shown())
      ensures r.Err? ==> users == old(users) && disk == old(disk) && currentUser == old(currentUser) && rows == old(rows)
      ensures expenses == old(expenses) && filtered == old(filtered) && filterActive == old(filterActive)
      ensures receipt == old(receipt)
      ensures Valid()
    {
      var uname := currentUser.value.username.value;
      r := Accounts.SaveProfile(users, uname, f, hash);
      if r.Ok? {
        users := r.value;
        SaveUsers();
        currentUser := Some(users[uname].(username := Some(uname)));
        RefreshTable();
      }
    }

    /**
     * `logout`: once confirmed, the signed-in user's ledger is saved and the
     * window forgets the user and the ledger. The filter is left as it was.
     */
    method Logout(confirmed: bool, choice: string)
      requires Valid()
      modifies this
      ensures !confirmed ==>
        currentUser == old(currentUser) && expenses == old(expenses) && users == old(users)
        && disk == old(disk) && rows == old(rows)
      ensures confirmed ==> currentUser.None? && expenses == [] && rows == []
      ensures confirmed && old(currentUser).Some? ==>
        users == old(users)[old(currentUser).value.username.value :=
          old(currentUser).value.(expenses := Some(old(expenses)), paymentMethod := Some(choice))]
        && disk == Store.SaveUsers(old(disk), users)
      ensures confirmed && old(currentUser).None? ==> users == old(users) && disk == old(disk)
      ensures filtered == old(filtered) && filterActive == old(filterActive) && receipt == old(receipt)
      ensures Valid()
    {
      if !confirmed {
        return;
      }
      if currentUser.Some? {
        SaveUserExpenses(choice);
      }
      currentUser := None;
      expenses := [];
      rows := [];
    }

    /** `on_closing`: with someone signed in and the save confirmed, the ledger is saved before the window closes. */
    method Close(confirmed: bool, choice: string)
      requires Valid()
      modifies this
      ensures old(currentUser).Some? && confirmed ==>
        users == old(users)[old(currentUser).value.username.value :=
          old(currentUser).value.(expenses := Some(old(expenses)), paymentMethod := Some(choice))]
        && disk == Store.SaveUsers(old(disk), users)
      ensures old(currentUser).None? || !confirmed ==> users == old(users) && disk == old(disk)
      ensures old(currentUser).Some? == currentUser.Some? && expenses == old(expenses)
      ensures filtered == old(filtered) && filterActive == old(filterActive) && receipt == old(receipt)
      ensures rows == old(rows)
    {
      if currentUser.Some? && confirmed {
        SaveUserExpenses(choice);
      }
    }
  }
}

=== FILE: web.dfy ===
/**
 * The web front end: one session holding the user map loaded from the same
 * JSON store and the signed-in user name. It creates accounts with the
 * password stored as typed, signs in by comparing it as typed, adds
 * category-tagged expenses, shows a summary with a per-category breakdown,
 * and clears a user's expenses.
 */
module Web {
  import opened Wrappers
  import opened Text
  import opened Calendar
  import opened Records
  import opened Store
  import opened Statistics
  import Accounts

  /** `load_data`: no file gives an empty map; the file is read as it is, without the desktop back-fill. `None` is a file that does not parse, which stops the page. */
  function LoadData(slot: Slot): (r: Option<Users>)
    ensures r.None? <==> slot.Unreadable?
    ensures slot.Missing? ==> r == Some(map[])
    ensures slot.Holds? ==> r == Some(slot.users)
  {
    match slot
    case Missing => Some(map[])
    case Unreadable => None
    case Holds(users) => Some(users)
  }

  datatype SignIn = UnknownUser | WrongPassword | SignedIn

  /** The sign-in check: the name must be a key as typed and the stored password must equal the typed one. */
  function CheckSignIn(users: Users, name: string, password: string): (r: SignIn)
    ensures r == SignedIn <==> name in users && users[name].password == password
    ensures r == UnknownUser <==> name !in users
  {
    if name !in users then UnknownUser
    else if users[name].password == password then SignedIn
    else WrongPassword
  }

  /** The account the web front end creates: the password as typed and an empty ledger, nothing else. */
  function WebAccount(password: string): (a: Account)
    ensures a.password == password && a.expenses == Some([])
    ensures a.name.None? && a.employeeId.None? && a.paymentMethod.None? && a.username.None?
  {
    Account(password, None, None, None, None, None, None, Some([]), None, None)
  }

  datatype Creation = MissingData | NameTaken | Created

  /** The record the add button appends. */
  function WebExpense(category: string, amount: real, date: Date, now: DateTime, description: string): (e: Expense)
    requires ValidDate(date) && ValidDateTime(now)
    ensures e.category == Some(category) && e.amount == Some(amount) && e.description == Some(description)
    ensures e.kind.None? && e.payment.None? && e.receipt.None?
    ensures e.origin.None? && e.destination.None? && e.notes.None? && e.addedAt.None? && e.updatedAt.None?
    ensures e.timestamp == Some(FormatStamp(now))
    // the stored date is the picked one, in the form the desktop reads back
    ensures e.date.Some? && (date.year >= 1000 ==> ParseDate(e.date.value) == Some(date))
  {
    var e := Expense(Some(FormatDate(date)), None, None, None, None, Some(amount), None, None, None, None,
                     Some(category), Some(description), Some(FormatStamp(now)));
    if date.year >= 1000 then
      ParseFormatDate(date);
      e
    else e
  }

  /** The category and amount of every record, or `None` when some record lacks either key (the page stops there). */
  function CategoryItems(s: seq<Expense>): (r: Option<seq<Item>>)
    ensures r.Some? <==> forall i :: 0 <= i < |s| ==> s[i].category.Some? && s[i].amount.Some?
    ensures r.Some? ==> |r.value| == |s|
    ensures r.Some? ==> forall i :: 0 <= i < |s| ==> r.value[i] == (s[i].category.value, s[i].amount.value)
  {
    if forall i :: 0 <= i < |s| ==> s[i].category.Some? && s[i].amount.Some? then
      Some(seq(|s|, i requires 0 <= i < |s| => (s[i].category.value, s[i].amount.value)))
    else None
  }

  /** The breakdown loop: one dictionary update per record, stopping at the first record without a category or an amount. */
  method CategoryLoop(s: seq<Expense>) returns (r: Option<seq<Group>>)
    ensures CategoryItems(s).None? ==> r.None?
    ensures CategoryItems(s).Some? ==> r == Some(Grouped(CategoryItems(s).value))
  {
    var g: seq<Group> := [];
    var i := 0;
    while i < |s|
      invariant 0 <= i <= |s|
      invariant forall j :: 0 <= j < i ==> s[j].category.Some? && s[j].amount.Some?
      invariant CategoryItems(s[..i]).Some? && g == Grouped(CategoryItems(s[..i]).value)
    {
      if s[i].category.None? || s[i].amount.None? {
        return None;
      }
      var items := CategoryItems(s[..i]).value;
      var next := CategoryItems(s[..i + 1]).value;
      assert next[..i] == items && next[i] == (s[i].category.value, s[i].amount.value);
      g := AddTo(g, s[i].category.value, s[i].amount.value);
      i := i + 1;
    }
    assert s[..i] == s;
    r := Some(g);
  }

  /** What the signed-in page shows below the add form. */
  datatype Overview = NoExpenses | Stopped | Shown(total: real, count: nat, average: real, categories: seq<Group>)

  /**
   * The summary: nothing for an empty ledger; otherwise the total, count and
   * average, then the categories by falling sum with each one's share of
   * the total. A record without a category or an amount stops the page, and
   * so does a zero total, which the share divides by unguarded.
   */
  function Summary(s: seq<Expense>): (r: Overview)
    ensures r == NoExpenses <==> s == []
    ensures r == Stopped <==> s != [] && (CategoryItems(s).None? || Total(s) == 0.0)
    ensures r.Shown? ==> r.total == Total(s) && r.count == |s| && r.average == Total(s) / |s| as real
    ensures r.Shown? ==> NonIncreasing(r.categories) && SumGroups(r.categories) == r.total
    ensures r.Shown? && r.total > 0.0 ==> SumShares(r.categories, r.total) == 100.0
    // one entry per category seen, holding the amounts filed under it
    ensures r.Shown? ==> Keys(r.categories) == ItemKeys(CategoryItems(s).value)
    ensures r.Shown? ==> forall x :: x in r.categories ==> x.sum == SumWhere(CategoryItems(s).value, x.key)
    ensures r.Shown? ==> DistinctKeys(r.categories)
  {
    if s == [] then NoExpenses
    else match CategoryItems(s)
      case None => Stopped
      case Some(items) =>
        if Total(s) == 0.0 then Stopped
        else
          CategoryTotals(s, items);
          Listing(items);
          if Total(s) > 0.0 then
            SharesAddUp(SortBySum(Grouped(items)), Total(s));
            Shown(Total(s), |s|, Total(s) / |s| as real, SortBySum(Grouped(items)))
          else
            Shown(Total(s), |s|, Total(s) / |s| as real, SortBySum(Grouped(items)))
  }

  /** With every amount present, the category amounts are the amounts the total adds up. */
  lemma CategoryTotals(s: seq<Expense>, items: seq<Item>)
    requires CategoryItems(s) == Some(items)
    ensures Sum(items) == Total(s)
  {
    ItemsTotal(s, items);
  }

  /**
   * The expense table beside the breakdown selects the date, category, amount
   * and description columns; the page stops there unless some record has a
   * date and some record has a description.
   */
  predicate TableShown(s: seq<Expense>)
  {
    (exists i :: 0 <= i < |s| && s[i].date.Some?) && (exists i :: 0 <= i < |s| && s[i].description.Some?)
  }

  /** The clear button is reached only once the summary and the table above it have been drawn. */
  predicate ClearShown(s: seq<Expense>)
  {
    Summary(s).Shown? && TableShown(s)
  }

  /** A ledger holding a record without a category, such as any desktop record, never reaches the clear button. */
  lemma DesktopRecordBlocksClear(s: seq<Expense>, i: int)
    requires 0 <= i < |s| && s[i].category.None?
    ensures !ClearShown(s)
  {
    assert CategoryItems(s).None?;
  }

  /** A non-empty ledger of records as the web page writes them, with positive amounts, always reaches the clear button. */
  lemma WebLedgerClears(s: seq<Expense>)
    requires s != []
    requires forall i :: 0 <= i < |s| ==> s[i].category.Some? && s[i].amount.Some? && s[i].date.Some? && s[i].description.Some?
    requires forall i :: 0 <= i < |s| ==> Amount(s[i]) > 0.0
    ensures ClearShown(s)
  {
    TotalBounds(s, 0);
    assert s[0].date.Some? && s[0].description.Some?;
  }

  /**
   * An account created on the desktop stores the digest of its password. The
   * web front end compares what is typed with what is stored, so there the
   * digest itself signs in, and the real password only if hashing leaves it unchanged.
   */
  lemma DigestSignsIn(users: Users, d: Accounts.RegisterForm, hash: string -> string, createdAt: string)
    requires Accounts.Register(users, d, hash, createdAt).Ok?
    ensures CheckSignIn(Accounts.Register(users, d, hash, createdAt).value, d.username, hash(d.password)) == SignedIn
    ensures CheckSignIn(Accounts.Register(users, d, hash, createdAt).value, d.username, d.password) == SignedIn
        <==> hash(d.password) == d.password
  {
  }

  /**
   * An account created on the web stores its password as typed; the desktop
   * compares the digest of what is typed with it, so the password opens the
   * account there only if hashing leaves it unchanged.
   */
  lemma WebAccountOnDesktop(users: Users, name: string, password: string, hash: string -> string)
    requires name != "" && password != "" && name == Strip(name)
    ensures Accounts.Login(users[name := WebAccount(password)], name, password, hash).Welcome?
        <==> hash(password) == password
  {
    StripIdempotent(name);
  }

  /** One browser session. */
  class Session {
    /** The user map as this session holds it. */
    var users: Users
    /** The data file, as read at the start or last written by this session. */
    var stored: Slot
    /** The signed-in user name. */
    var current: Option<string>

    ghost predicate Valid()
      reads this
    {
      current.Some? ==> current.value in users
    }

    /**
     * The first run of the page: the map `load_data` reads from the file, and
     * nobody signed in. A file that cannot be read stops the page first.
     */
    constructor(file: Slot)
      requires LoadData(file).Some?
      ensures users == LoadData(file).value && stored == file && current.None?
      ensures Valid()
    {
      users := LoadData(file).value;
      stored := file;
      current := None;
    }

    /** The sign-in button, shown only while nobody is signed in. */
    method SignInAs(name: string, password: string) returns (r: SignIn)
      requires current.None?
      modifies this
      ensures r == CheckSignIn(users, name, password)
      ensures current == (if r == SignedIn then Some(name) else None)
      ensures users == old(users) && stored == old(stored)
      ensures Valid()
    {
      r := CheckSignIn(users, name, password);
      if r == SignedIn {
        current := Some(name);
      }
    }

    /** The create-account button, shown only while nobody is signed in; a new account is saved at once. */
    method CreateAccount(name: string, password: string) returns (r: Creation)
      requires current.None?
      modifies this
      ensures r == MissingData <==> name == "" || password == ""
      ensures r == NameTaken <==> name != "" && password != "" && name in old(users)
      ensures r == Created ==> users == old(users)[name := WebAccount(password)] && stored == Holds(users)
      ensures r != Created ==> users == old(users) && stored == old(stored)
      ensures current.None? && Valid()
    {
      if name != "" && password != "" {
        if name !in users {
          users := users[name := WebAccount(password)];
          stored := Holds(users);
          r := Created;
        } else {
          r := NameTaken;
        }
      } else {
        r := MissingData;
      }
    }

    method SignOut()
      modifies this
      ensures current.None? && users == old(users) && stored == old(stored)
    {
      current := None;
    }

    /**
     * The add button: a positive amount appends a category-tagged record to
     * the signed-in user's ledger and saves. A ledger key that is missing
     * stops the page before anything changes.
     */
    method AddExpense(category: string, amount: real, date: Date, now: DateTime, description: string)
      returns (added: bool)
      requires Valid() && current.Some?
      requires ValidDate(date) && ValidDateTime(now)
      modifies this
      ensures added <==> amount > 0.0 && old(users)[old(current).value].expenses.Some?
      ensures added ==> users == old(users)[old(current).value := old(users)[old(current).value].(expenses :=
        Some(old(users)[old(current).value].expenses.value + [WebExpense(category, amount, date, now, description)]))]
      ensures added ==> stored == Holds(users)
      ensures !added ==> users == old(users) && stored == old(stored)
      ensures current == old(current) && Valid()
    {
      var u := current.value;
      added := false;
      if amount > 0.0 && users[u].expenses.Some? {
        var e := WebExpense(category, amount, date, now, description);
        users := users[u := users[u].(expenses := Some(users[u].expenses.value + [e]))];
        stored := Holds(users);
        added := true;
      }
    }

    /**
     * The clear button, drawn only after the summary and the table of a
     * non-empty ledger: pressing it empties the ledger and saves. A summary
     * or table that stops the page leaves no button to press.
     */
    method ClearAll() returns (cleared: bool)
      requires Valid() && current.Some?
      modifies this
      ensures cleared <==> old(users)[old(current).value].expenses.Some? && ClearShown(old(users)[old(current).value].expenses.value)
      ensures cleared ==> users == old(users)[old(current).value := old(users)[old(current).value].(expenses := Some([]))]
      ensures cleared ==> stored == Holds(users)
      ensures !cleared ==> users == old(users) && stored == old(stored)
      ensures current == old(current) && Valid()
    {
      var u := current.value;
      cleared := false;
      if users[u].expenses.Some? && ClearShown(users[u].expenses.value) {
        users := users[u := users[u].(expenses := Some([]))];
        stored := Holds(users);
        cleared := true;
      }
    }
  }
}

=== FILE: wrappers.dfy ===
/** Optional values and outcomes: a dictionary key that may be missing, an operation that may refuse. */
module Wrappers {

  datatype Option<+T> = None | Some(value: T) {

    /** The value, or `default` when there is none (Python's `d.get(key, default)`). */
    function GetOr(default: T): T
    {
      match this
      case Some(v) => v
      case None => default
    }
  }

  /** An operation's new value, or the error message it shows instead. */
  datatype Result<+T, +E> = Ok(value: T) | Err(error: E)
}
